=== FILE: README.md ===
# topkappy core in Dafny

This project models the pure core of topkappy. topkappy is a small Python layer that writes
Kappa rule-based models as script text and pretty-prints the parser's diagnostics. The model
has three parts.

- **Error-context formatter** (`error_format.dfy`, module `ErrorFormat`).
  - `split_text_in_three` cuts a script into *before / excerpt / after* around a (line, column) range.
  - `lines_subtext` keeps a window of whole lines.
  - Each diagnostic becomes a coloured `[severity] text` header, a blank line, and the script
    around the range with the excerpt coloured. `formatted_string` joins these blocks with blank lines.
- **Kappa script serialiser** (`kappa_classes.dfy` and `kappa_model.dfy`).
  - Agents become `%agent:` declarations and site states become `A(s[x])`.
  - Rules become `'name' reactants sense products @ rate`.
  - Initial quantities become `%init:` lines, snapshot times become `%mod: alarm … do $SNAPSHOT "id";`
    lines, and plot items become `%plot:` lines.
  - The full script is the five sections joined by blank lines.
  - Every line kind has a parser, so the main properties are read-back round trips.
- **Data reshapes**:
  - The plot transpose `dict(zip(legend, zip(*series)))` (`PlotColumns` in `kappa_model.dfy`).
  - The snapshot-to-graph construction (`agents_graphs.dfy`, module `AgentsGraphs`). The graph
    library's `add_node`/`add_edge` are modelled on a map of nodes and a map of unordered edges. The
    build is the list of these calls in program order, applied left to right.

`text.dfy` (module `Text`) holds Python's `str.split` on one character and `str.join`, with
their inverse laws, plus `%d` rendering of integer counts and its parser. `outcomes.dfy` holds `Option` and `Result`.

Python dictionaries (initial quantities, snapshot times) are sequences of pairs in insertion
order. The reshaped plot data is a Dafny `map`.

The context window of a diagnostic is `[max(0, sl - 2), el + 2)`: up to two lines before the
range and one after.

## Model

| member | source | states |
|---|---|---|
| ErrorFormat.LinesSubtext | topkappy/FormattedKappaError.py:3-5 | `lines_subtext`; its contract is stated by ErrorFormat.LinesOfSubtext and ErrorFormat.WholeSubtext |
| ErrorFormat.LinesOfSubtext | topkappy/FormattedKappaError.py:3-5 | the lines of `lines_subtext(text, a, b)` are exactly lines `a` up to `min(b, line count)` of `text` |
| ErrorFormat.WholeSubtext | topkappy/FormattedKappaError.py:3-5 | a window from line 0 that covers every line gives back the text unchanged |
| ErrorFormat.SplitTextInThreeAsWritten | topkappy/FormattedKappaError.py:8-21 | `split_text_in_three` as written; ErrorFormat.AsWrittenAgrees and ErrorFormat.AsWrittenExtraLineBreak state when it matches the corrected split and how it differs |
| ErrorFormat.SplitTextInThree | topkappy/FormattedKappaError.py:8-21 | the corrected split; ErrorFormat.BeforeShape, ErrorFormat.AfterShape, ErrorFormat.ExcerptShape and ErrorFormat.SplitRoundTrip state its parts and round trip |
| ErrorFormat.BeforeShape | topkappy/FormattedKappaError.py:10-11 | *before* splits into the lines above the range plus the head of the start line, has exactly `sl` newlines and ends with `lines[sl][:sc]` |
| ErrorFormat.AfterShape | topkappy/FormattedKappaError.py:20 | *after* splits into the tail of the end line plus the lines below, has `lineCount - 1 - el` newlines and starts with `lines[el][ec:]` |
| ErrorFormat.ExcerptShape | topkappy/FormattedKappaError.py:12-19 | a one-line excerpt is `lines[sl][sc:ec]`; a longer one splits into the start-line tail, the inner lines and the end-line head |
| ErrorFormat.SplitRoundTrip | topkappy/FormattedKappaError.py:8-21 | for the corrected split, *before* + *excerpt* + *after* is the original text for every valid range |
| ErrorFormat.AsWrittenAgrees | topkappy/FormattedKappaError.py:12-19 | the split as written and the corrected split agree whenever the end line is not exactly the line after the start line |
| ErrorFormat.AdjacentExcerpts | topkappy/FormattedKappaError.py:15-19 | when the range ends on the next line, the written excerpt has a doubled line break where the corrected one has a single one |
| ErrorFormat.AsWrittenExtraLineBreak | topkappy/FormattedKappaError.py:15-20 | when the range ends on the next line, the written split reassembles to the text with one extra `"\n"` inserted at the end of the start line, so it is never the text |
| ErrorFormat.AsWrittenCounterexample | topkappy/FormattedKappaError.py:8-21 | `"ab\ncd"` with range (0,1)-(1,1) reassembles to `"ab\n\ncd"` |
| ErrorFormat.MarkedJoin | topkappy/FormattedKappaError.py:59-62 | for the corrected split, wrapping the excerpt in the colour codes and reassembling is the script with the codes inserted at the two range ends, line structure kept |
| ErrorFormat.MarkedNothing | topkappy/FormattedKappaError.py:59-62 | with empty colour codes the marked lines are the script's lines |
| ErrorFormat.MarkedPlain | topkappy/FormattedKappaError.py:61-64 | colour codes without line breaks add no line, so the windowing counts script lines |
| ErrorFormat.ColorOf | topkappy/FormattedKappaError.py:44-51 | `error` gives red and `warning` gives orange. Every other severity gives black, and each implication holds both ways |
| ErrorFormat.FormatErrorItem | topkappy/FormattedKappaError.py:50-65 | one diagnostic's block, on the corrected split; its contract is stated by ErrorFormat.FormatErrorItemWindow |
| ErrorFormat.FormatErrorItemAsWritten | topkappy/FormattedKappaError.py:50-65 | one diagnostic's block on the split as written; ErrorFormat.AsWrittenItemAgrees and ErrorFormat.AsWrittenItemWindow state it |
| ErrorFormat.FormatErrorItemWindow | topkappy/FormattedKappaError.py:50-65 | the block is the coloured header, a blank line, and marked lines `max(0, sl-2)` to `min(el+2, count)`; 1-based lines are shifted down, so at most 2 lines come before the range and 1 after |
| ErrorFormat.AsWrittenItemAgrees | topkappy/FormattedKappaError.py:50-65 | unless the range ends on the line right after its start line, the block as written is the corrected block |
| ErrorFormat.AdjacentMarkedLines | topkappy/FormattedKappaError.py:59-62 | for a range ending on the next line, the coloured body as written has the marked lines with one empty line inserted before the end line |
| ErrorFormat.AsWrittenItemWindow | topkappy/FormattedKappaError.py:59-65 | for a range ending on the next line, the block as written is the header, a blank line, and marked lines `max(0, sl-2)` to `el`, then an empty line, then the end line: no line after the range is shown. When the end line is not the last line, the window keeps its length and the line after the range drops out; when it is the last line, the block has one extra blank line |
| ErrorFormat.CorrectedItemExample | topkappy/FormattedKappaError.py:50-65 | `"a\nb\nc"` with range (line 1, chr 0)-(line 2, chr 1) and no styling gives `"[error] m\n\na\nb\nc"` |
| ErrorFormat.AsWrittenItemExample | topkappy/FormattedKappaError.py:50-65 | the same input through the code as written gives `"[error] m\n\na\n\nb"` |
| ErrorFormat.CorrectedLastLineExample | topkappy/FormattedKappaError.py:50-65 | `"a\nb"` with range (line 1, chr 0)-(line 2, chr 1), ending on the last line, and no styling gives `"[error] m\n\na\nb"` |
| ErrorFormat.AsWrittenLastLineExample | topkappy/FormattedKappaError.py:50-65 | the same input through the code as written gives `"[error] m\n\na\n\nb"`, one line more than the corrected block |
| ErrorFormat.FormattedString | topkappy/FormattedKappaError.py:68-71 | `formatted_string` on the corrected blocks (`FormatErrorItem`); the source's report joins `FormatErrorItemAsWritten` blocks. Its contract is stated by ErrorFormat.FormattedStringOrder |
| ErrorFormat.FormattedStringOrder | topkappy/FormattedKappaError.py:68-71 | no items give `""` and one item gives its block. Concatenated item lists give the two reports joined by a blank line, in input order |
| KappaClasses.Declaration | topkappy/KappaClasses.py:7-10 | the `%agent:` line, which is also `str(agent)`; KappaClasses.DeclarationRoundTrip states its contract |
| KappaClasses.SitesRoundTrip | topkappy/KappaClasses.py:7-8 | when no site contains a comma and the list is not `[""]`, the `", "`-joined site list splits back into the sites |
| KappaClasses.DeclarationRoundTrip | topkappy/KappaClasses.py:7-10 | for a `Declarable` agent (no `(` in its name, no `,` in any site, and sites not `[""]`), parsing its declaration (also its `str`) gives back the agent. Without that condition the line is ambiguous: `A` with sites `[""]` and `A` with no sites both print `%agent: A()` |
| KappaClasses.NewSiteState | topkappy/KappaClasses.py:14-19 | construction fails with `ValueError("<declaration> has not site <site>")` exactly when a declared agent lacks the site. Named agents are never checked, and success keeps all three fields |
| KappaClasses.Render | topkappy/KappaClasses.py:20-24 | a site state's text; KappaClasses.SiteStateRoundTrip states its contract |
| KappaClasses.SiteStateRoundTrip | topkappy/KappaClasses.py:20-24 | when the agent name has no `(` and the site no `[`, parsing `A(s[x])` gives back the site state, with the agent by name |
| KappaClasses.RenderAllRoundTrip | topkappy/KappaClasses.py:42-44 | the `","`-joined renderings parse back into the list, in order, and contain no space |
| KappaClasses.RuleText | topkappy/KappaClasses.py:35-46 | a rule's text; KappaClasses.RuleRoundTrip states its contract |
| KappaClasses.RuleRoundTrip | topkappy/KappaClasses.py:35-46 | for a rule satisfying `ReadableRule` (no quote in its name, no space in its sense, and site states without spaces or commas that are readable), parsing its text gives back its name, reactants, sense, products and rate, with the agents by name only |
| KappaModel.AgentsLines | topkappy/KappaModel.py:29-30 | when no agent or site name holds a line break, the agents section splits into one declaration per agent, in order, and an empty section is one empty line |
| KappaModel.RulesLines | topkappy/KappaModel.py:32-33 | when no rule field or site-state name holds a line break, the rules section splits into one rule text per rule, in order |
| KappaModel.InitsLines | topkappy/KappaModel.py:35-40 | when no agent name holds a line break, the inits section splits into one `%init:` line per quantity, in insertion order |
| KappaModel.SnapshotsLines | topkappy/KappaModel.py:42-46 | when no id or printed time holds a line break, the snapshots section splits into one alarm line per snapshot, in insertion order |
| KappaModel.PlotsLines | topkappy/KappaModel.py:55-59 | when no item's string holds a line break, the plots section splits into one `%plot:` line per item, in order |
| KappaModel.InitLine | topkappy/KappaModel.py:35-40 | one `%init:` line; KappaModel.InitLineRoundTrip states its contract |
| KappaModel.SnapshotLine | topkappy/KappaModel.py:42-46 | one alarm line; KappaModel.SnapshotLineRoundTrip states its contract |
| KappaModel.PlotItemString | topkappy/KappaModel.py:48-54 | `_auto_plot_item_string`; KappaModel.PlotLineRoundTrip states its contract |
| KappaModel.FullScript | topkappy/KappaModel.py:61-68 | `_full_kappa_script`; KappaModel.ScriptLayout and KappaModel.ScriptReadBack state its contract |
| KappaModel.InitLineRoundTrip | topkappy/KappaModel.py:35-40 | parsing an `%init:` line gives back the agent's name and the exact count |
| KappaModel.SnapshotLineRoundTrip | topkappy/KappaModel.py:42-46 | when the printed time has no space, parsing an alarm line gives back the formatted time and the snapshot id |
| KappaModel.PlotLineRoundTrip | topkappy/KappaModel.py:48-59 | an agent plots as `A()` and a site state as its rendering, each between two bars, and the rendering parses back. Any other item is passed through |
| KappaModel.BlankLineJoin | topkappy/KappaModel.py:61-68 | the lines of a blank-line join are each part's lines, separated by one empty line |
| KappaModel.ScriptLayout | topkappy/KappaModel.py:61-68 | when no printed part holds a line break, the script's lines are the five sections' lines in fixed order, separated by empty lines; an empty section still contributes its line |
| KappaModel.ScriptReadBack | topkappy/KappaModel.py:29-46 | per-line round trips over the model's lists: for a model satisfying `Printable` (line-break free, `Declarable` agents, `ReadableRule` rules, times without spaces), each agent, rule, init and snapshot line parses back into the value it was made from; which script lines these are is stated by KappaModel.ScriptLayout |
| KappaModel.Width | topkappy/KappaModel.py:83 | `zip(*series)` has as many tuples as the shortest row, and none for no rows |
| KappaModel.ZippedKeys | topkappy/KappaModel.py:83 | the reference `dict(zip(...))` has every legend label below the cut-off as a key and no other key, and has at most cut-off entries |
| KappaModel.ZippedLastWins | topkappy/KappaModel.py:83 | a label's value is the column of its last occurrence |
| KappaModel.PlotReshape | topkappy/KappaModel.py:83 | the reshape's keys are the labels among the first `min(len(legend), shortest row)` and nothing else, at most that many. A label maps to the column of its last occurrence, and no rows give no entries |
| KappaModel.PlotColumns | topkappy/KappaModel.py:83 | building the map one legend pair at a time yields the reference `dict(zip(legend, columns))` over the usable columns; what that map holds is stated by KappaModel.PlotReshape |
| AgentsGraphs.AddNode | topkappy/agents_graphs.py:9-13 | `add_node` adds the node with the given attributes and leaves everything else alone. networkx merges the keyword attributes into the node's dictionary; every call here passes both `node_type` and `node_name`, so the merge equals setting the label |
| AgentsGraphs.AddEdge | topkappy/agents_graphs.py:14-18 | `add_edge` adds missing ends without attributes and gives the unordered edge the attributes, leaving the rest alone. networkx merges the keyword attributes into the edge's dictionary; every call here passes both `edge_type` and `weight`, so the merge equals setting the label |
| AgentsGraphs.SnapshotGraph | topkappy/agents_graphs.py:6-19 | `snapshot_agent_nodes_to_graph`; AgentsGraphs.SnapshotNodes, AgentsGraphs.SnapshotEdges and AgentsGraphs.NodeCount state its contract |
| AgentsGraphs.ApplyNodes | topkappy/agents_graphs.py:6-19 | after a run of calls, a node is present exactly when some call mentions it |
| AgentsGraphs.ApplyNodeLabel | topkappy/agents_graphs.py:9-13 | a node every `add_node` call labels alike carries that label at the end |
| AgentsGraphs.ApplyUnlabelled | topkappy/agents_graphs.py:17-18 | a node only edges brought in has no attributes |
| AgentsGraphs.ApplyEdges | topkappy/agents_graphs.py:6-19 | an unordered edge is present exactly when some `add_edge` call has those ends |
| AgentsGraphs.ApplyEdgeLabel | topkappy/agents_graphs.py:14-18 | an edge every call labels alike carries that label |
| AgentsGraphs.SnapshotOpsSound | topkappy/agents_graphs.py:8-18 | each call the construction makes adds a declared agent or site with its label, a port edge, or a link edge |
| AgentsGraphs.DeclaredNode | topkappy/agents_graphs.py:8-13 | agent `i` is a node labelled `agent` with its `node_type`, and site `(i, j)` is a node labelled with its site type and name |
| AgentsGraphs.SnapshotNodes | topkappy/agents_graphs.py:6-19 | the nodes are the agents and sites with their labels plus any link target, and a node that is not an agent or site is unlabelled |
| AgentsGraphs.PortEdgeOf | topkappy/agents_graphs.py:14 | each site has a `port` edge of weight 4 to its agent |
| AgentsGraphs.LinkEdgeOf | topkappy/agents_graphs.py:15-18 | each link of a `port` site is a `link` edge of weight 1 to the link's `(agent, site)` |
| AgentsGraphs.EdgeOrigin | topkappy/agents_graphs.py:14-18 | every edge is a port edge of a site or a link edge of a port site |
| AgentsGraphs.SnapshotEdges | topkappy/agents_graphs.py:14-18 | the edges are exactly the port edges and link edges, with their labels |
| AgentsGraphs.NoAgentAgentEdge | topkappy/agents_graphs.py:8-18 | every edge has a site node at one end, so no edge joins two agents |
| AgentsGraphs.BondListedTwice | topkappy/agents_graphs.py:16-18 | a bond listed at both its sites is one and the same undirected `link` edge |
| AgentsGraphs.NodeDeclared | topkappy/agents_graphs.py:8-18 | when every link names an existing site, every node is an agent or a site |
| AgentsGraphs.NodeKeys | topkappy/agents_graphs.py:8-18 | when every link names an existing site, the node set is exactly the agents plus their sites |
| AgentsGraphs.NodeCount | topkappy/agents_graphs.py:8-18 | when every link names an existing site, there are `len(nodes)` plus the total number of sites nodes |

## Left out

- The Kappa engine (`kappy`) is not modelled: `get_simulation_results` apart from the reshape at line 83, `set_parameters` and its `"%.04f"` stop condition, and the simulation parameters. These are calls into an external engine.
- `from_kappa_error` only reads the engine's exception payload. The model starts from the list of diagnostics it would pass on.
- `termcolor.colored` is a foreign library. It is the `Painter` parameter: a prefix and a suffix chosen by the colour name. The proofs about windows assume they contain no line break. Whether the library accepts `orange` or `black` is not modelled.
- `"%.03f"` formatting of snapshot times is a parameter function of the time. `str(rate)` and the tuple form of list or tuple rates are not modelled; a rule's rate is kept as its rendered text.
- The plotting and layout functions are left out. These are `plot_snapshot_agent_nodes_graph`, `plot_snapshot_agents` and `plot_simulation_time_series`. They are drawing code over matplotlib and networkx.
- Python's negative indices and slice clamping of out-of-range lines and columns are not modelled. Ranges must lie in the script: `0 <= sl <= el < lineCount`, columns within their lines, and `sc <= ec` on one line. Out-of-range lines make the source raise `IndexError`.
- ErrorFormat.FormatErrorItemWindow: states the block built on the corrected split, which the rest of the model uses (see Findings). For a range ending on the line right after its start line, the source's block differs: a blank line stands before the end line and no line after the range is shown. When the end line is not the last line, the window keeps its length and the line after the range drops out; when it is the last line, the block as written has one extra blank line. ErrorFormat.AsWrittenItemWindow states that block.
- Initial quantities are integers. Python's `%d` also accepts a float and truncates it (`'%d' % 2.5` is `"2"`); the model does not express that.
- Dictionary keys of initial quantities and snapshot times are not forced to be distinct; the model keeps whatever pairs it is given, in order.
- The reshaped plot map does not keep the order of the legend.
- Snapshot link entries are taken to be `(agent, site)` pairs; `tuple(link)` of another length is not modelled.
- `setup.py`, the package `__init__`, the demo script and the tests are packaging and examples that need a live engine.

## Findings

| source | as written | input that shows it | evidently intended | confidence | as-written member | corrected member |
|---|---|---|---|---|---|---|
| topkappy/FormattedKappaError.py:15-19 | a range ending on the line after its start joins the start-line tail, the empty middle `""` and the end-line head with `"\n"`, so the excerpt has two line breaks | `"ab\ncd"`, range (0,1)-(1,1): before `"a"`, excerpt `"b\n\nc"`, after `"d"`, reassembled `"ab\n\ncd"` | *before* + *excerpt* + *after* is the text for every range | high (not executed) | ErrorFormat.AsWrittenExtraLineBreak | ErrorFormat.SplitRoundTrip |
| topkappy/FormattedKappaError.py:59-64 | the extra line break from the split moves the window: a range ending on the line after its start shows a blank line and no line after the range | `"a\nb\nc"`, range (line 1, chr 0)-(line 2, chr 1), no styling: `"[error] m\n\na\n\nb"`; ending on the last line, `"a\nb"` with the same range gives `"[error] m\n\na\n\nb"`, one line more than the corrected `"[error] m\n\na\nb"` | the block shows the range's lines and one line after it: `"[error] m\n\na\nb\nc"` | high (not executed) | ErrorFormat.AsWrittenItemWindow | ErrorFormat.FormatErrorItemWindow |

=== FILE: agents_graphs.dfy ===
/** The graph of one snapshot complex: a node per agent, a node per site, a `port`
    edge from every agent to each of its sites, and a `link` edge for every bond a
    port site lists. The graph is undirected, so an edge is keyed by the set of its
    two ends. */
module AgentsGraphs {

  // ---------------------------------------------------------------------------
  // Graphs

  /** Agent `i` is the node `i`; site `j` of agent `i` is the node `(i, j)`. */
  datatype NodeId = AgentNode(agent: int) | SiteNode(agent: int, site: int)

  /** A node's attributes; a node that only an edge brought in has none. */
  datatype NodeLabel = Unlabelled | Labelled(nodeType: string, nodeName: string)

  datatype EdgeLabel = EdgeLabel(edgeType: string, weight: int)

  datatype Graph = Graph(nodes: map<NodeId, NodeLabel>, edges: map<set<NodeId>, EdgeLabel>)

  const PortEdge := EdgeLabel("port", 4)
  const LinkEdge := EdgeLabel("link", 1)

  /** `add_node(id, ...)`: the node is added, or its attributes are replaced. (networkx
      merges the given attributes into the old ones; every call here passes both
      keys, so merging equals replacing.) */
  function AddNode(g: Graph, id: NodeId, attrs: NodeLabel): (r: Graph)
    ensures r.nodes.Keys == g.nodes.Keys + {id} && r.nodes[id] == attrs
    ensures forall x :: x in g.nodes && x != id ==> r.nodes[x] == g.nodes[x]
    ensures r.edges == g.edges
  {
    g.(nodes := g.nodes[id := attrs])
  }

  /** `add_edge(u, v, ...)`: missing ends are added without attributes, present ones
      keep theirs, and the edge `{u, v}` is added or its attributes replaced. (As for
      nodes, networkx merges; every call here passes both keys, so merging equals
      replacing.) */
  function AddEdge(g: Graph, u: NodeId, v: NodeId, attrs: EdgeLabel): (r: Graph)
    ensures r.nodes.Keys == g.nodes.Keys + {u, v}
    ensures forall x :: x in g.nodes ==> r.nodes[x] == g.nodes[x]
    ensures forall x :: x in r.nodes && x !in g.nodes ==> r.nodes[x] == Unlabelled
    ensures r.edges.Keys == g.edges.Keys + {{u, v}} && r.edges[{u, v}] == attrs
    ensures forall e :: e in g.edges && e != {u, v} ==> r.edges[e] == g.edges[e]
  {
    var withU := if u in g.nodes then g.nodes else g.nodes[u := Unlabelled];
    var withV := if v in withU then withU else withU[v := Unlabelled];
    Graph(withV, g.edges[{u, v} := attrs])
  }

  /** One call on the graph. */
  datatype Op = NodeOp(id: NodeId, nodeLabel: NodeLabel) | EdgeOp(u: NodeId, v: NodeId, edgeLabel: EdgeLabel)

  function Step(g: Graph, op: Op): Graph
  {
    match op
    case NodeOp(id, attrs) => AddNode(g, id, attrs)
    case EdgeOp(u, v, attrs) => AddEdge(g, u, v, attrs)
  }

  /** The graph that a run of calls builds from the empty graph, in order. */
  function Apply(ops: seq<Op>): Graph
  {
    if |ops| == 0 then Graph(map[], map[]) else Step(Apply(ops[..|ops| - 1]), ops[|ops| - 1])
  }

  predicate Mentions(op: Op, id: NodeId)
  {
    match op
    case NodeOp(x, _) => x == id
    case EdgeOp(u, v, _) => u == id || v == id
  }

  function Ends(op: Op): set<NodeId>
    requires op.EdgeOp?
  {
    {op.u, op.v}
  }

  // ---------------------------------------------------------------------------
  // What a run of calls builds

  /** A node is present exactly when some call mentions it. */
  lemma {:induction false} ApplyNodes(ops: seq<Op>, id: NodeId)
    ensures id in Apply(ops).nodes <==> exists op :: op in ops && Mentions(op, id)
  {
    if |ops| > 0 {
      var init, last := ops[..|ops| - 1], ops[|ops| - 1];
      assert ops == init + [last];
      ApplyNodes(init, id);
      if id in Apply(ops).nodes {
        if id in Apply(init).nodes {
          var op :| op in init && Mentions(op, id);
          assert op in ops;
        } else {
          assert Mentions(last, id);
        }
      }
      if exists op :: op in ops && Mentions(op, id) {
        var op :| op in ops && Mentions(op, id);
        if op != last {
          assert op in init;
        }
      }
    }
  }

  /** A node that some call labels, and that every call labelling it labels alike,
      ends with that label. */
  lemma {:induction false} ApplyNodeLabel(ops: seq<Op>, id: NodeId, attrs: NodeLabel)
    requires NodeOp(id, attrs) in ops
    requires forall op :: op in ops && op.NodeOp? && op.id == id ==> op.nodeLabel == attrs
    ensures id in Apply(ops).nodes && Apply(ops).nodes[id] == attrs
  {
    var init, last := ops[..|ops| - 1], ops[|ops| - 1];
    assert ops == init + [last];
    if last != NodeOp(id, attrs) {
      assert NodeOp(id, attrs) in init;
      ApplyNodeLabel(init, id, attrs);
    }
  }

  /** A node no call labels has no label. */
  lemma {:induction false} ApplyUnlabelled(ops: seq<Op>, id: NodeId)
    requires forall op :: op in ops ==> !(op.NodeOp? && op.id == id)
    requires id in Apply(ops).nodes
    ensures Apply(ops).nodes[id] == Unlabelled
  {
    var init, last := ops[..|ops| - 1], ops[|ops| - 1];
    assert ops == init + [last];
    if id in Apply(init).nodes {
      ApplyUnlabelled(init, id);
    }
  }

  /** An edge is present exactly when some call adds it. */
  lemma {:induction false} ApplyEdges(ops: seq<Op>, e: set<NodeId>)
    ensures e in Apply(ops).edges <==> exists op :: op in ops && op.EdgeOp? && Ends(op) == e
  {
    if |ops| > 0 {
      var init, last := ops[..|ops| - 1], ops[|ops| - 1];
      assert ops == init + [last];
      ApplyEdges(init, e);
      if e in Apply(ops).edges {
        if e in Apply(init).edges {
          var op :| op in init && op.EdgeOp? && Ends(op) == e;
          assert op in ops;
        } else {
          assert last.EdgeOp? && Ends(last) == e;
        }
      }
      if exists op :: op in ops && op.EdgeOp? && Ends(op) == e {
        var op :| op in ops && op.EdgeOp? && Ends(op) == e;
        if op != last {
          assert op in init;
        }
      }
    }
  }

  /** An edge that every call adding it labels alike ends with that label. */
  lemma {:induction false} ApplyEdgeLabel(ops: seq<Op>, e: set<NodeId>, attrs: EdgeLabel)
    requires e in Apply(ops).edges
    requires forall op :: op in ops && op.EdgeOp? && Ends(op) == e ==> op.edgeLabel == attrs
    ensures Apply(ops).edges[e] == attrs
  {
    var init, last := ops[..|ops| - 1], ops[|ops| - 1];
    assert ops == init + [last];
    if !(last.EdgeOp? && Ends(last) == e) {
      ApplyEdgeLabel(init, e, attrs);
    }
  }

  // ---------------------------------------------------------------------------
  // Snapshot complexes

  /** A site of a snapshot agent: its name, its type, and the `(agent, site)` pairs
      it is bound to, which are read only when the type is `port`. */
  datatype SnapshotSite = SnapshotSite(name: string, siteType: string, portLinks: seq<(int, int)>)

  datatype SnapshotAgent = SnapshotAgent(nodeType: string, sites: seq<SnapshotSite>)

  predicate IsPort(site: SnapshotSite)
  {
    site.siteType == "port"
  }

  function Target(link: (int, int)): NodeId
  {
    SiteNode(link.0, link.1)
  }

  function Targets(links: seq<(int, int)>): (r: seq<NodeId>)
    ensures |r| == |links|
    ensures forall k :: 0 <= k < |r| ==> r[k] == Target(links[k])
  {
    seq(|links|, k requires 0 <= k < |links| => Target(links[k]))
  }

  function AgentLabel(agent: SnapshotAgent): NodeLabel
  {
    Labelled("agent", agent.nodeType)
  }

  function SiteLabel(site: SnapshotSite): NodeLabel
  {
    Labelled(site.siteType, site.name)
  }

  /** The calls for the links of one port site, in list order. */
  function LinkOps(from: NodeId, links: seq<(int, int)>): (r: seq<Op>)
    ensures |r| == |links|
    ensures forall k :: 0 <= k < |r| ==> r[k] == EdgeOp(from, Target(links[k]), LinkEdge)
  {
    seq(|links|, k requires 0 <= k < |links| => EdgeOp(from, Target(links[k]), LinkEdge))
  }

  /** The calls for the first `m` sites of agent `i`: the site node, its port edge,
      then, for a port site, one edge per link. */
  function SiteOps(i: int, sites: seq<SnapshotSite>, m: nat): seq<Op>
    requires m <= |sites|
  {
    if m == 0 then []
    else
      var j := m - 1;
      SiteOps(i, sites, j)
        + [NodeOp(SiteNode(i, j), SiteLabel(sites[j])), EdgeOp(AgentNode(i), SiteNode(i, j), PortEdge)]
        + (if IsPort(sites[j]) then LinkOps(SiteNode(i, j), sites[j].portLinks) else [])
  }

  /** The calls for the first `n` agents: the agent node, then its sites. */
  function AgentOps(agents: seq<SnapshotAgent>, n: nat): seq<Op>
    requires n <= |agents|
  {
    if n == 0 then []
    else
      AgentOps(agents, n - 1) + [NodeOp(AgentNode(n - 1), AgentLabel(agents[n - 1]))]
        + SiteOps(n - 1, agents[n - 1].sites, |agents[n - 1].sites|)
  }

  /** `snapshot_agent_nodes_to_graph`: the calls the nested loops make, in order. */
  function SnapshotGraph(agents: seq<SnapshotAgent>): Graph
  {
    Apply(SnapshotOps(agents))
  }

  // ---------------------------------------------------------------------------
  // The graph described without the loops

  /** The nodes the snapshot declares: its agents and their sites. */
  predicate Declared(agents: seq<SnapshotAgent>, id: NodeId)
  {
    match id
    case AgentNode(i) => 0 <= i < |agents|
    case SiteNode(i, j) => 0 <= i < |agents| && 0 <= j < |agents[i].sites|
  }

  function LabelOf(agents: seq<SnapshotAgent>, id: NodeId): NodeLabel
    requires Declared(agents, id)
  {
    match id
    case AgentNode(i) => AgentLabel(agents[i])
    case SiteNode(i, j) => SiteLabel(agents[i].sites[j])
  }

  /** Some port site lists a link to `id`. */
  predicate Linked(agents: seq<SnapshotAgent>, id: NodeId)
  {
    exists i, j :: 0 <= i < |agents| && 0 <= j < |agents[i].sites|
      && IsPort(agents[i].sites[j]) && id in Targets(agents[i].sites[j].portLinks)
  }

  /** `e` joins an agent to one of its sites. */
  predicate IsPortEdge(agents: seq<SnapshotAgent>, e: set<NodeId>)
  {
    exists i, j :: 0 <= i < |agents| && 0 <= j < |agents[i].sites| && e == {AgentNode(i), SiteNode(i, j)}
  }

  /** `e` joins a port site to a node one of its links names. */
  predicate IsLinkEdge(agents: seq<SnapshotAgent>, e: set<NodeId>)
  {
    exists i, j, k :: 0 <= i < |agents| && 0 <= j < |agents[i].sites| && IsPort(agents[i].sites[j])
      && 0 <= k < |agents[i].sites[j].portLinks|
      && e == {SiteNode(i, j), Target(agents[i].sites[j].portLinks[k])}
  }

  /** A call the construction may make: labelling a declared node with its own
      attributes, a port edge from an agent to one of its sites, or a link edge from
      a port site to a node it lists. */
  predicate SoundOp(agents: seq<SnapshotAgent>, op: Op)
  {
    match op
    case NodeOp(id, attrs) => Declared(agents, id) && attrs == LabelOf(agents, id)
    case EdgeOp(u, v, attrs) =>
      || (u.AgentNode? && v.SiteNode? && v.agent == u.agent && Declared(agents, v) && attrs == PortEdge)
      || (u.SiteNode? && Declared(agents, u) && IsPort(agents[u.agent].sites[u.site])
          && v in Targets(agents[u.agent].sites[u.site].portLinks) && attrs == LinkEdge)
  }

  lemma {:induction false} SiteOpsSound(agents: seq<SnapshotAgent>, i: int, m: nat)
    requires 0 <= i < |agents| && m <= |agents[i].sites|
    ensures forall op :: op in SiteOps(i, agents[i].sites, m) ==> SoundOp(agents, op)
  {
    if m > 0 {
      var j := m - 1;
      var site := agents[i].sites[j];
      SiteOpsSound(agents, i, j);
      if IsPort(site) {
        var links := LinkOps(SiteNode(i, j), site.portLinks);
        forall op | op in links ensures SoundOp(agents, op) {
          var k :| 0 <= k < |links| && links[k] == op;
          assert Targets(site.portLinks)[k] == Target(site.portLinks[k]);
        }
      }
    }
  }

  lemma {:induction false} AgentOpsSound(agents: seq<SnapshotAgent>, n: nat)
    requires n <= |agents|
    ensures forall op :: op in AgentOps(agents, n) ==> SoundOp(agents, op)
  {
    if n > 0 {
      AgentOpsSound(agents, n - 1);
      SiteOpsSound(agents, n - 1, |agents[n - 1].sites|);
    }
  }

  lemma {:induction false} SiteOpsComplete(agents: seq<SnapshotAgent>, i: int, m: nat)
    requires 0 <= i < |agents| && m <= |agents[i].sites|
    ensures forall j :: 0 <= j < m ==>
              && NodeOp(SiteNode(i, j), SiteLabel(agents[i].sites[j])) in SiteOps(i, agents[i].sites, m)
              && EdgeOp(AgentNode(i), SiteNode(i, j), PortEdge) in SiteOps(i, agents[i].sites, m)
    ensures forall j, k :: 0 <= j < m && IsPort(agents[i].sites[j]) && 0 <= k < |agents[i].sites[j].portLinks| ==>
              EdgeOp(SiteNode(i, j), Target(agents[i].sites[j].portLinks[k]), LinkEdge)
                in SiteOps(i, agents[i].sites, m)
  {
    if m > 0 {
      var sites := agents[i].sites;
      var j := m - 1;
      SiteOpsComplete(agents, i, j);
      var ops := SiteOps(i, sites, m);
      var front := SiteOps(i, sites, j)
                   + [NodeOp(SiteNode(i, j), SiteLabel(sites[j])), EdgeOp(AgentNode(i), SiteNode(i, j), PortEdge)];
      var links := if IsPort(sites[j]) then LinkOps(SiteNode(i, j), sites[j].portLinks) else [];
      assert ops == front + links;
      forall j', k | 0 <= j' < m && IsPort(sites[j']) && 0 <= k < |sites[j'].portLinks|
        ensures EdgeOp(SiteNode(i, j'), Target(sites[j'].portLinks[k]), LinkEdge) in ops
      {
        if j' == j {
          assert links[k] == EdgeOp(SiteNode(i, j), Target(sites[j].portLinks[k]), LinkEdge);
        }
      }
    }
  }

  /** The calls for agent `i` are among the calls for the first `n` agents. */
  lemma {:induction false} AgentOpsContain(agents: seq<SnapshotAgent>, n: nat, i: int)
    requires n <= |agents| && 0 <= i < n
    ensures NodeOp(AgentNode(i), AgentLabel(agents[i])) in AgentOps(agents, n)
    ensures forall op :: op in SiteOps(i, agents[i].sites, |agents[i].sites|) ==> op in AgentOps(agents, n)
  {
    if i < n - 1 {
      AgentOpsContain(agents, n - 1, i);
    }
  }

  /** The calls that build the snapshot graph. */
  function SnapshotOps(agents: seq<SnapshotAgent>): seq<Op>
  {
    AgentOps(agents, |agents|)
  }

  lemma SnapshotOpsSound(agents: seq<SnapshotAgent>, op: Op)
    requires op in SnapshotOps(agents)
    ensures SoundOp(agents, op)
  {
    AgentOpsSound(agents, |agents|);
  }

  // ---------------------------------------------------------------------------
  // Properties of the snapshot graph

  /** Every agent and every site is a node carrying its own type and name. */
  lemma DeclaredNode(agents: seq<SnapshotAgent>, id: NodeId)
    requires Declared(agents, id)
    ensures id in SnapshotGraph(agents).nodes && SnapshotGraph(agents).nodes[id] == LabelOf(agents, id)
  {
    var ops := SnapshotOps(agents);
    AgentOpsSound(agents, |agents|);
    match id {
      case AgentNode(i) =>
        AgentOpsContain(agents, |agents|, i);
      case SiteNode(i, j) =>
        AgentOpsContain(agents, |agents|, i);
        SiteOpsComplete(agents, i, |agents[i].sites|);
    }
    ApplyNodeLabel(ops, id, LabelOf(agents, id));
  }

  /** The calls for link `k` of port site `(i, j)` are among the snapshot's calls. */
  lemma LinkOpIn(agents: seq<SnapshotAgent>, i: int, j: int, k: int)
    requires 0 <= i < |agents| && 0 <= j < |agents[i].sites| && IsPort(agents[i].sites[j])
    requires 0 <= k < |agents[i].sites[j].portLinks|
    ensures EdgeOp(SiteNode(i, j), Target(agents[i].sites[j].portLinks[k]), LinkEdge) in SnapshotOps(agents)
  {
    AgentOpsContain(agents, |agents|, i);
    SiteOpsComplete(agents, i, |agents[i].sites|);
  }

  /** Every node a port site's link names is in the graph. */
  lemma LinkedNode(agents: seq<SnapshotAgent>, id: NodeId)
    requires Linked(agents, id)
    ensures id in SnapshotGraph(agents).nodes
  {
    var i, j :| 0 <= i < |agents| && 0 <= j < |agents[i].sites|
      && IsPort(agents[i].sites[j]) && id in Targets(agents[i].sites[j].portLinks);
    var links := agents[i].sites[j].portLinks;
    var k :| 0 <= k < |links| && Targets(links)[k] == id;
    LinkOpIn(agents, i, j, k);
    var op := EdgeOp(SiteNode(i, j), Target(links[k]), LinkEdge);
    assert Mentions(op, id);
    ApplyNodes(SnapshotOps(agents), id);
  }

  /** Every node is an agent, a site, or a node some link names. */
  lemma NodeOrigin(agents: seq<SnapshotAgent>, id: NodeId)
    requires id in SnapshotGraph(agents).nodes
    ensures Declared(agents, id) || Linked(agents, id)
  {
    var ops := SnapshotOps(agents);
    ApplyNodes(ops, id);
    var op :| op in ops && Mentions(op, id);
    SnapshotOpsSound(agents, op);
    if op.EdgeOp? && op.v == id && !op.u.AgentNode? {
      var i, j := op.u.agent, op.u.site;
      assert 0 <= i < |agents| && 0 <= j < |agents[i].sites|
        && IsPort(agents[i].sites[j]) && id in Targets(agents[i].sites[j].portLinks);
    }
  }

  /** A node that is neither an agent nor a site carries no attributes. */
  lemma UndeclaredNode(agents: seq<SnapshotAgent>, id: NodeId)
    requires id in SnapshotGraph(agents).nodes && !Declared(agents, id)
    ensures SnapshotGraph(agents).nodes[id] == Unlabelled
  {
    var ops := SnapshotOps(agents);
    forall op | op in ops ensures !(op.NodeOp? && op.id == id) {
      SnapshotOpsSound(agents, op);
    }
    ApplyUnlabelled(ops, id);
  }

  /** Every agent and every site is a node carrying its own type and name; besides
      them the graph holds only nodes that some port site's links name, and those
      carry no attributes. */
  lemma SnapshotNodes(agents: seq<SnapshotAgent>)
    ensures var g := SnapshotGraph(agents);
            && (forall id :: Declared(agents, id) ==> id in g.nodes && g.nodes[id] == LabelOf(agents, id))
            && (forall id :: Linked(agents, id) ==> id in g.nodes)
            && (forall id :: id in g.nodes ==> Declared(agents, id) || Linked(agents, id))
            && (forall id :: id in g.nodes && !Declared(agents, id) ==> g.nodes[id] == Unlabelled)
  {
    var g := SnapshotGraph(agents);
    forall id | Declared(agents, id) ensures id in g.nodes && g.nodes[id] == LabelOf(agents, id) {
      DeclaredNode(agents, id);
    }
    forall id | Linked(agents, id) ensures id in g.nodes {
      LinkedNode(agents, id);
    }
    forall id | id in g.nodes ensures Declared(agents, id) || Linked(agents, id) {
      NodeOrigin(agents, id);
    }
    forall id | id in g.nodes && !Declared(agents, id) ensures g.nodes[id] == Unlabelled {
      UndeclaredNode(agents, id);
    }
  }

  /** Every site has a `port` edge (weight 4) to its agent. */
  lemma PortEdgeOf(agents: seq<SnapshotAgent>, i: int, j: int)
    requires 0 <= i < |agents| && 0 <= j < |agents[i].sites|
    ensures var e := {AgentNode(i), SiteNode(i, j)};
            e in SnapshotGraph(agents).edges && SnapshotGraph(agents).edges[e] == PortEdge
  {
    var ops := SnapshotOps(agents);
    var e := {AgentNode(i), SiteNode(i, j)};
    AgentOpsContain(agents, |agents|, i);
    SiteOpsComplete(agents, i, |agents[i].sites|);
    var op := EdgeOp(AgentNode(i), SiteNode(i, j), PortEdge);
    assert op in ops && Ends(op) == e;
    ApplyEdges(ops, e);
    forall op' | op' in ops && op'.EdgeOp? && Ends(op') == e ensures op'.edgeLabel == PortEdge {
      SnapshotOpsSound(agents, op');
      assert AgentNode(i) in Ends(op');
    }
    ApplyEdgeLabel(ops, e, PortEdge);
  }

  /** Every link of a port site is a `link` edge (weight 1). */
  lemma LinkEdgeOf(agents: seq<SnapshotAgent>, i: int, j: int, k: int)
    requires 0 <= i < |agents| && 0 <= j < |agents[i].sites| && IsPort(agents[i].sites[j])
    requires 0 <= k < |agents[i].sites[j].portLinks|
    ensures var e := {SiteNode(i, j), Target(agents[i].sites[j].portLinks[k])};
            e in SnapshotGraph(agents).edges && SnapshotGraph(agents).edges[e] == LinkEdge
  {
    var ops := SnapshotOps(agents);
    var e := {SiteNode(i, j), Target(agents[i].sites[j].portLinks[k])};
    LinkOpIn(agents, i, j, k);
    var op := EdgeOp(SiteNode(i, j), Target(agents[i].sites[j].portLinks[k]), LinkEdge);
    assert op in ops && Ends(op) == e;
    ApplyEdges(ops, e);
    forall op' | op' in ops && op'.EdgeOp? && Ends(op') == e ensures op'.edgeLabel == LinkEdge {
      SnapshotOpsSound(agents, op');
      assert op'.u in e;
    }
    ApplyEdgeLabel(ops, e, LinkEdge);
  }

  /** Every edge is a port edge or a link edge. */
  lemma EdgeOrigin(agents: seq<SnapshotAgent>, e: set<NodeId>)
    requires e in SnapshotGraph(agents).edges
    ensures IsPortEdge(agents, e) || IsLinkEdge(agents, e)
  {
    var ops := SnapshotOps(agents);
    ApplyEdges(ops, e);
    var op :| op in ops && op.EdgeOp? && Ends(op) == e;
    SnapshotOpsSound(agents, op);
    if op.u.AgentNode? {
      assert e == {AgentNode(op.u.agent), SiteNode(op.u.agent, op.v.site)};
    } else {
      var i, j := op.u.agent, op.u.site;
      var links := agents[i].sites[j].portLinks;
      var k :| 0 <= k < |links| && Targets(links)[k] == op.v;
      assert e == {SiteNode(i, j), Target(links[k])};
    }
  }

  /** Every site has a `port` edge (weight 4) to its agent, every link of a port site
      is a `link` edge (weight 1), and there are no other edges. */
  lemma SnapshotEdges(agents: seq<SnapshotAgent>)
    ensures var g := SnapshotGraph(agents);
            && (forall i, j :: 0 <= i < |agents| && 0 <= j < |agents[i].sites| ==>
                  {AgentNode(i), SiteNode(i, j)} in g.edges && g.edges[{AgentNode(i), SiteNode(i, j)}] == PortEdge)
            && (forall i, j, k ::
                  (0 <= i < |agents| && 0 <= j < |agents[i].sites| && IsPort(agents[i].sites[j])
                   && 0 <= k < |agents[i].sites[j].portLinks|) ==>
                  var e := {SiteNode(i, j), Target(agents[i].sites[j].portLinks[k])};
                  e in g.edges && g.edges[e] == LinkEdge)
            && (forall e :: e in g.edges ==> IsPortEdge(agents, e) || IsLinkEdge(agents, e))
  {
    var g := SnapshotGraph(agents);
    forall i, j | 0 <= i < |agents| && 0 <= j < |agents[i].sites|
      ensures {AgentNode(i), SiteNode(i, j)} in g.edges && g.edges[{AgentNode(i), SiteNode(i, j)}] == PortEdge
    {
      PortEdgeOf(agents, i, j);
    }
    forall i, j, k | 0 <= i < |agents| && 0 <= j < |agents[i].sites| && IsPort(agents[i].sites[j])
                     && 0 <= k < |agents[i].sites[j].portLinks|
      ensures var e := {SiteNode(i, j), Target(agents[i].sites[j].portLinks[k])};
              e in g.edges && g.edges[e] == LinkEdge
    {
      LinkEdgeOf(agents, i, j, k);
    }
    forall e | e in g.edges ensures IsPortEdge(agents, e) || IsLinkEdge(agents, e) {
      EdgeOrigin(agents, e);
    }
  }

  /** Every edge has a site at one of its ends, so no edge joins two agents. */
  lemma NoAgentAgentEdge(agents: seq<SnapshotAgent>)
    ensures forall e :: e in SnapshotGraph(agents).edges ==> exists x :: x in e && x.SiteNode?
  {
    forall e | e in SnapshotGraph(agents).edges ensures exists x :: x in e && x.SiteNode? {
      EdgeOrigin(agents, e);
      if IsPortEdge(agents, e) {
        var i, j :| 0 <= i < |agents| && 0 <= j < |agents[i].sites| && e == {AgentNode(i), SiteNode(i, j)};
        assert SiteNode(i, j) in e;
      } else {
        var i, j, k :| 0 <= i < |agents| && 0 <= j < |agents[i].sites| && IsPort(agents[i].sites[j])
          && 0 <= k < |agents[i].sites[j].portLinks|
          && e == {SiteNode(i, j), Target(agents[i].sites[j].portLinks[k])};
        assert SiteNode(i, j) in e;
      }
    }
  }

  /** A bond listed at both of its ends is one edge. */
  lemma BondListedTwice(agents: seq<SnapshotAgent>, i: int, j: int, k: int, i': int, j': int, k': int)
    requires 0 <= i < |agents| && 0 <= j < |agents[i].sites| && IsPort(agents[i].sites[j])
    requires 0 <= k < |agents[i].sites[j].portLinks| && agents[i].sites[j].portLinks[k] == (i', j')
    requires 0 <= i' < |agents| && 0 <= j' < |agents[i'].sites| && IsPort(agents[i'].sites[j'])
    requires 0 <= k' < |agents[i'].sites[j'].portLinks| && agents[i'].sites[j'].portLinks[k'] == (i, j)
    ensures var e := {SiteNode(i, j), SiteNode(i', j')};
            && e in SnapshotGraph(agents).edges
            && e == {SiteNode(i', j'), Target(agents[i'].sites[j'].portLinks[k'])}
            && SnapshotGraph(agents).edges[e] == LinkEdge
  {
    LinkEdgeOf(agents, i, j, k);
    assert Target(agents[i].sites[j].portLinks[k]) == SiteNode(i', j');
  }

  // ---------------------------------------------------------------------------
  // Counting nodes when every link names a declared site

  /** Every link of every port site names a site of the snapshot. */
  predicate LinksDeclared(agents: seq<SnapshotAgent>)
  {
    forall i, j, k ::
      (0 <= i < |agents| && 0 <= j < |agents[i].sites| && IsPort(agents[i].sites[j])
       && 0 <= k < |agents[i].sites[j].portLinks|) ==>
      Declared(agents, Target(agents[i].sites[j].portLinks[k]))
  }

  /** The agent nodes `0 .. n - 1`. */
  function AgentIds(n: nat): set<NodeId>
  {
    set i | 0 <= i < n :: AgentNode(i)
  }

  /** The site nodes `(i, 0) .. (i, m - 1)`. */
  function SiteIds(i: int, m: nat): set<NodeId>
  {
    set j | 0 <= j < m :: SiteNode(i, j)
  }

  /** The number of sites of the first `n` agents. */
  function SiteCount(agents: seq<SnapshotAgent>, n: nat): nat
    requires n <= |agents|
  {
    if n == 0 then 0 else SiteCount(agents, n - 1) + |agents[n - 1].sites|
  }

  /** The site nodes of the first `n` agents. */
  function AllSiteIds(agents: seq<SnapshotAgent>, n: nat): set<NodeId>
    requires n <= |agents|
  {
    set i, j | 0 <= i < n && 0 <= j < |agents[i].sites| :: SiteNode(i, j)
  }

  lemma {:induction false} AgentIdsCount(n: nat)
    ensures |AgentIds(n)| == n
  {
    if n > 0 {
      AgentIdsCount(n - 1);
      assert AgentIds(n) == AgentIds(n - 1) + {AgentNode(n - 1)};
    }
  }

  lemma {:induction false} SiteIdsCount(i: int, m: nat)
    ensures |SiteIds(i, m)| == m
  {
    if m > 0 {
      SiteIdsCount(i, m - 1);
      assert SiteIds(i, m) == SiteIds(i, m - 1) + {SiteNode(i, m - 1)};
    }
  }

  lemma {:induction false} AllSiteIdsCount(agents: seq<SnapshotAgent>, n: nat)
    requires n <= |agents|
    ensures |AllSiteIds(agents, n)| == SiteCount(agents, n)
  {
    if n > 0 {
      AllSiteIdsCount(agents, n - 1);
      var front := AllSiteIds(agents, n - 1);
      var last := SiteIds(n - 1, |agents[n - 1].sites|);
      SiteIdsCount(n - 1, |agents[n - 1].sites|);
      assert AllSiteIds(agents, n) == front + last;
      assert front * last == {};
    }
  }

  /** The agents and sites of the snapshot, as a set of nodes. */
  lemma DeclaredIds(agents: seq<SnapshotAgent>, id: NodeId)
    ensures Declared(agents, id) <==> id in AgentIds(|agents|) + AllSiteIds(agents, |agents|)
  {
    match id {
      case AgentNode(i) =>
        if Declared(agents, id) {
          assert id in AgentIds(|agents|);
        }
      case SiteNode(i, j) =>
        if Declared(agents, id) {
          assert id in AllSiteIds(agents, |agents|);
        }
    }
  }

  /** When every link names a site of the snapshot, every node is declared. */
  lemma NodeDeclared(agents: seq<SnapshotAgent>, id: NodeId)
    requires LinksDeclared(agents)
    requires id in SnapshotGraph(agents).nodes
    ensures Declared(agents, id)
  {
    NodeOrigin(agents, id);
  }

  /** When every link names a site of the snapshot, the nodes are exactly the
      agents and their sites. */
  lemma NodeKeys(agents: seq<SnapshotAgent>)
    requires LinksDeclared(agents)
    ensures SnapshotGraph(agents).nodes.Keys == AgentIds(|agents|) + AllSiteIds(agents, |agents|)
  {
    var g := SnapshotGraph(agents);
    var ids := AgentIds(|agents|) + AllSiteIds(agents, |agents|);
    forall id | id in g.nodes ensures id in ids {
      NodeDeclared(agents, id);
      DeclaredIds(agents, id);
    }
    forall id | id in ids ensures id in g.nodes {
      DeclaredIds(agents, id);
      DeclaredNode(agents, id);
    }
  }

  /** When every link names a site of the snapshot, the graph has one node per
      agent and one per site: `|agents|` plus the total number of sites. */
  lemma NodeCount(agents: seq<SnapshotAgent>)
    requires LinksDeclared(agents)
    ensures |SnapshotGraph(agents).nodes| == |agents| + SiteCount(agents, |agents|)
  {
    var agentIds, siteIds := AgentIds(|agents|), AllSiteIds(agents, |agents|);
    NodeKeys(agents);
    assert agentIds * siteIds == {};
    AgentIdsCount(|agents|);
    AllSiteIdsCount(agents, |agents|);
    assert |SnapshotGraph(agents).nodes.Keys| == |agentIds + siteIds|;
  }
}

=== FILE: error_format.dfy ===
/** The Kappa error formatter: a diagnostic (severity, message, a range of script
    positions) becomes a coloured header followed by the script lines around the
    range, with the range itself coloured. */
module ErrorFormat {
  import opened Text

  /** The script's lines, as `text.split("\n")`. */
  function Lines(text: string): seq<string>
  {
    SplitOn(text, '\n')
  }

  /** Python's `xs[a:b]` for non-negative bounds: the end is clamped to the length,
      and the slice is empty once the start reaches the end. */
  function Slice<T>(xs: seq<T>, a: nat, b: nat): (r: seq<T>)
    ensures |r| == Max(0, Min(b, |xs|) - a)
    ensures forall k :: 0 <= k < |r| ==> r[k] == xs[a + k]
  {
    var hi := if b < |xs| then b else |xs|;
    if a < hi then xs[a..hi] else []
  }

  /** `lines_subtext(text, a, b)`: the lines `a` up to (excluding) `b`, joined again. */
  function LinesSubtext(text: string, startLine: nat, endLine: nat): string
  {
    Join(Slice(Lines(text), startLine, endLine), "\n")
  }

  /** The lines a window keeps are exactly the lines of the window's text; a window
      that starts at or past its end (or past the last line) is the empty text. */
  lemma LinesOfSubtext(text: string, startLine: nat, endLine: nat)
    ensures startLine < Min(endLine, |Lines(text)|) ==>
              Lines(LinesSubtext(text, startLine, endLine))
              == Lines(text)[startLine..Min(endLine, |Lines(text)|)]
    ensures startLine >= Min(endLine, |Lines(text)|) ==> LinesSubtext(text, startLine, endLine) == ""
  {
    var lines := Lines(text);
    var kept := Slice(lines, startLine, endLine);
    if startLine < Min(endLine, |lines|) {
      assert kept == lines[startLine..Min(endLine, |lines|)];
      SplitOnJoin(kept, '\n');
    }
  }

  /** A window from the first line past the last one is the whole text. */
  lemma WholeSubtext(text: string, endLine: nat)
    requires endLine >= |Lines(text)|
    ensures LinesSubtext(text, 0, endLine) == text
  {
    assert Slice(Lines(text), 0, endLine) == Lines(text);
    JoinSplitOn(text, '\n');
  }

  // ---------------------------------------------------------------------------
  // Splitting the script around a range

  /** A range the formatter can cut out: both lines exist, the start line is not
      after the end line, both columns lie within their lines, and on a single
      line the start column is not after the end column. */
  predicate ValidSpan(lines: seq<string>, sl: int, sc: int, el: int, ec: int)
  {
    && 0 <= sl <= el < |lines|
    && 0 <= sc <= |lines[sl]|
    && 0 <= ec <= |lines[el]|
    && (sl == el ==> sc <= ec)
  }

  datatype ThreeParts = ThreeParts(before: string, excerpt: string, after: string)

  /** Everything up to the start position: the whole lines before it and the head
      of the start line. */
  function Before(lines: seq<string>, sl: nat, sc: nat): string
    requires sl < |lines| && sc <= |lines[sl]|
  {
    Join(lines[..sl] + [lines[sl][..sc]], "\n")
  }

  /** Everything from the end position on: the tail of the end line and the whole
      lines after it. */
  function After(lines: seq<string>, el: nat, ec: nat): string
    requires el < |lines| && ec <= |lines[el]|
  {
    Join([lines[el][ec..]] + lines[el + 1..], "\n")
  }

  /** The text the range covers: a column slice on one line; otherwise the tail
      of the start line, the interior lines, and the head of the end line. */
  function Excerpt(lines: seq<string>, sl: int, sc: int, el: int, ec: int): string
    requires ValidSpan(lines, sl, sc, el, ec)
  {
    if sl == el then lines[sl][sc..ec]
    else Join([lines[sl][sc..]] + lines[sl + 1..el] + [lines[el][..ec]], "\n")
  }

  /** The multi-line excerpt as `split_text_in_three` builds it: the interior
      lines are first joined into one part, which is then joined between the two
      ends, so an empty interior still brings its own separator. */
  function ExcerptAsWritten(lines: seq<string>, sl: int, sc: int, el: int, ec: int): string
    requires ValidSpan(lines, sl, sc, el, ec)
  {
    if sl == el then lines[sl][sc..ec]
    else Join([lines[sl][sc..]] + [Join(lines[sl + 1..el], "\n")] + [lines[el][..ec]], "\n")
  }

  /** `split_text_in_three` exactly as written. */
  function SplitTextInThreeAsWritten(text: string, sl: int, sc: int, el: int, ec: int): ThreeParts
    requires ValidSpan(Lines(text), sl, sc, el, ec)
  {
    var lines := Lines(text);
    ThreeParts(Before(lines, sl, sc), ExcerptAsWritten(lines, sl, sc, el, ec), After(lines, el, ec))
  }

  /** `split_text_in_three` with the excerpt built from all of its lines at once. */
  function SplitTextInThree(text: string, sl: int, sc: int, el: int, ec: int): ThreeParts
    requires ValidSpan(Lines(text), sl, sc, el, ec)
  {
    var lines := Lines(text);
    ThreeParts(Before(lines, sl, sc), Excerpt(lines, sl, sc, el, ec), After(lines, el, ec))
  }

  /** The script's lines with `open` inserted at the start position and `close` at
      the end position; every other line is untouched. */
  function Marked(lines: seq<string>, sl: int, sc: int, el: int, ec: int, open: string, close: string): (r: seq<string>)
    requires ValidSpan(lines, sl, sc, el, ec)
  {
    seq(|lines|, k requires 0 <= k < |lines| =>
      if k == sl && k == el then lines[k][..sc] + open + lines[k][sc..ec] + close + lines[k][ec..]
      else if k == sl then lines[k][..sc] + open + lines[k][sc..]
      else if k == el then lines[k][..ec] + close + lines[k][ec..]
      else lines[k])
  }

  // ---------------------------------------------------------------------------
  // Properties of the split

  /** `before` is the first `sl` lines plus the head of line `sl`: it holds exactly
      `sl` line breaks and ends with `lines[sl][..sc]`. */
  lemma BeforeShape(text: string, sl: int, sc: int, el: int, ec: int)
    requires ValidSpan(Lines(text), sl, sc, el, ec)
    ensures var lines := Lines(text);
            var b := SplitTextInThree(text, sl, sc, el, ec).before;
            && Lines(b) == lines[..sl] + [lines[sl][..sc]]
            && multiset(b)['\n'] == sl
            && |b| >= sc && b[|b| - sc..] == lines[sl][..sc]
  {
    var lines := Lines(text);
    var head := lines[sl][..sc];
    var parts := lines[..sl] + [head];
    var b := Before(lines, sl, sc);
    NotInSlice(lines[sl], '\n', 0, sc);
    SplitOnJoin(parts, '\n');
    SplitOnCount(b, '\n');
    if sl > 0 {
      JoinAppend(lines[..sl], [head], "\n");
    } else {
      assert parts == [head];
    }
  }

  /** `after` is the tail of line `el` plus the remaining lines: it starts with
      `lines[el][ec..]` and holds one line break per line after `el`. */
  lemma AfterShape(text: string, sl: int, sc: int, el: int, ec: int)
    requires ValidSpan(Lines(text), sl, sc, el, ec)
    ensures var lines := Lines(text);
            var a := SplitTextInThree(text, sl, sc, el, ec).after;
            && Lines(a) == [lines[el][ec..]] + lines[el + 1..]
            && multiset(a)['\n'] == |lines| - 1 - el
            && |a| >= |lines[el]| - ec && a[..|lines[el]| - ec] == lines[el][ec..]
  {
    var lines := Lines(text);
    var tail := lines[el][ec..];
    var parts := [tail] + lines[el + 1..];
    var a := After(lines, el, ec);
    NotInSlice(lines[el], '\n', ec, |lines[el]|);
    SplitOnJoin(parts, '\n');
    SplitOnCount(a, '\n');
    JoinLength(parts, "\n");
  }

  /** On one line the excerpt is the column slice; across lines its own lines are
      the tail of the start line, the interior lines and the head of the end line. */
  lemma ExcerptShape(text: string, sl: int, sc: int, el: int, ec: int)
    requires ValidSpan(Lines(text), sl, sc, el, ec)
    ensures var lines := Lines(text);
            var e := SplitTextInThree(text, sl, sc, el, ec).excerpt;
            && (sl == el ==> e == lines[sl][sc..ec])
            && (sl < el ==> Lines(e) == [lines[sl][sc..]] + lines[sl + 1..el] + [lines[el][..ec]])
  {
    var lines := Lines(text);
    if sl < el {
      var parts := [lines[sl][sc..]] + lines[sl + 1..el] + [lines[el][..ec]];
      NotInSlice(lines[sl], '\n', sc, |lines[sl]|);
      NotInSlice(lines[el], '\n', 0, ec);
      assert forall k :: 0 <= k < |parts| ==> '\n' !in parts[k];
      SplitOnJoin(parts, '\n');
    }
  }

  /** On a one-line range the marked lines differ from the script in that line only. */
  lemma MarkedOneLine(lines: seq<string>, s: int, sc: int, ec: int, open: string, close: string)
    requires ValidSpan(lines, s, sc, s, ec)
    ensures Marked(lines, s, sc, s, ec, open, close)
         == lines[..s] + [lines[s][..sc] + open + lines[s][sc..ec] + close + lines[s][ec..]] + lines[s + 1..]
  {
    var m := Marked(lines, s, sc, s, ec, open, close);
    var g := lines[..s] + [lines[s][..sc] + open + lines[s][sc..ec] + close + lines[s][ec..]] + lines[s + 1..];
    assert |g| == |m|;
    forall k | 0 <= k < |m| ensures g[k] == m[k] {
      if k > s {
        assert g[k] == lines[s + 1..][k - s - 1];
      }
    }
  }

  /** On a range over several lines the marked lines differ from the script in the
      start and end lines only. */
  lemma MarkedManyLines(lines: seq<string>, sl: int, sc: int, el: int, ec: int, open: string, close: string)
    requires ValidSpan(lines, sl, sc, el, ec) && sl < el
    ensures Marked(lines, sl, sc, el, ec, open, close)
         == lines[..sl] + [lines[sl][..sc] + open + lines[sl][sc..]] + lines[sl + 1..el]
            + [lines[el][..ec] + close + lines[el][ec..]] + lines[el + 1..]
  {
    var m := Marked(lines, sl, sc, el, ec, open, close);
    var g := lines[..sl] + [lines[sl][..sc] + open + lines[sl][sc..]] + lines[sl + 1..el]
             + [lines[el][..ec] + close + lines[el][ec..]] + lines[el + 1..];
    assert |g| == |m|;
    forall k | 0 <= k < |m| ensures g[k] == m[k] {
      if sl < k < el {
        assert g[k] == lines[sl + 1..el][k - sl - 1];
      } else if k > el {
        assert g[k] == lines[el + 1..][k - el - 1];
      }
    }
  }

  /** Marking with nothing leaves the script's lines as they are. */
  lemma MarkedNothing(lines: seq<string>, sl: int, sc: int, el: int, ec: int)
    requires ValidSpan(lines, sl, sc, el, ec)
    ensures Marked(lines, sl, sc, el, ec, "", "") == lines
  {
    var m := Marked(lines, sl, sc, el, ec, "", "");
    forall k | 0 <= k < |lines| ensures m[k] == lines[k] {
      if k == sl && k == el {
        assert lines[k] == lines[k][..sc] + lines[k][sc..ec] + lines[k][ec..];
      } else if k == sl {
        assert lines[k] == lines[k][..sc] + lines[k][sc..];
      } else if k == el {
        assert lines[k] == lines[k][..ec] + lines[k][ec..];
      }
    }
  }

  lemma MarkedJoinOneLine(lines: seq<string>, s: int, sc: int, ec: int, open: string, close: string)
    requires ValidSpan(lines, s, sc, s, ec)
    ensures Before(lines, s, sc) + (open + Excerpt(lines, s, sc, s, ec) + close) + After(lines, s, ec)
         == Join(Marked(lines, s, sc, s, ec, open, close), "\n")
  {
    var u := lines[s];
    MarkedOneLine(lines, s, sc, ec, open, close);
    JoinGlue(lines[..s], u[..sc], open + u[sc..ec] + close, u[ec..], lines[s + 1..], "\n");
    assert u[..sc] + (open + u[sc..ec] + close) + u[ec..] == u[..sc] + open + u[sc..ec] + close + u[ec..];
  }

  lemma Regroup(b: string, o: string, e: string, c: string, a: string)
    ensures b + (o + e + c) + a == (b + o + e) + c + a
  {
  }

  /** The text up to the start position, the opening marker and the excerpt join to
      the marked lines up to the head of the end line. */
  lemma OpenedExcerpt(lines: seq<string>, sl: int, sc: int, el: int, ec: int, open: string)
    requires ValidSpan(lines, sl, sc, el, ec) && sl < el
    ensures Before(lines, sl, sc) + open + Excerpt(lines, sl, sc, el, ec)
         == Join(lines[..sl] + [lines[sl][..sc] + open + lines[sl][sc..]] + lines[sl + 1..el] + [lines[el][..ec]], "\n")
  {
    var u := lines[sl];
    var mid := lines[sl + 1..el];
    var tailParts := mid + [lines[el][..ec]];
    assert [u[sc..]] + mid + [lines[el][..ec]] == [u[sc..]] + tailParts;
    JoinGlue(lines[..sl], u[..sc], open, u[sc..], tailParts, "\n");
    assert lines[..sl] + [u[..sc] + open + u[sc..]] + tailParts
        == lines[..sl] + [u[..sc] + open + u[sc..]] + mid + [lines[el][..ec]];
  }

  lemma MarkedJoinManyLines(lines: seq<string>, sl: int, sc: int, el: int, ec: int, open: string, close: string)
    requires ValidSpan(lines, sl, sc, el, ec) && sl < el
    ensures Before(lines, sl, sc) + (open + Excerpt(lines, sl, sc, el, ec) + close) + After(lines, el, ec)
         == Join(Marked(lines, sl, sc, el, ec, open, close), "\n")
  {
    var w := lines[el];
    var first := lines[..sl] + [lines[sl][..sc] + open + lines[sl][sc..]] + lines[sl + 1..el];
    var before, after := Before(lines, sl, sc), After(lines, el, ec);
    var excerpt := Excerpt(lines, sl, sc, el, ec);
    OpenedExcerpt(lines, sl, sc, el, ec, open);
    JoinGlue(first, w[..ec], close, w[ec..], lines[el + 1..], "\n");
    MarkedManyLines(lines, sl, sc, el, ec, open, close);
    Regroup(before, open, excerpt, close, after);
  }

  /** Cutting the script and inserting `open`/`close` around the excerpt gives the
      joined marked lines. */
  lemma MarkedJoin(text: string, sl: int, sc: int, el: int, ec: int, open: string, close: string)
    requires ValidSpan(Lines(text), sl, sc, el, ec)
    ensures var p := SplitTextInThree(text, sl, sc, el, ec);
            p.before + (open + p.excerpt + close) + p.after
              == Join(Marked(Lines(text), sl, sc, el, ec, open, close), "\n")
  {
    if sl == el {
      MarkedJoinOneLine(Lines(text), sl, sc, ec, open, close);
    } else {
      MarkedJoinManyLines(Lines(text), sl, sc, el, ec, open, close);
    }
  }

  /** Round trip: the three parts of the split concatenate back to the script. */
  lemma SplitRoundTrip(text: string, sl: int, sc: int, el: int, ec: int)
    requires ValidSpan(Lines(text), sl, sc, el, ec)
    ensures var p := SplitTextInThree(text, sl, sc, el, ec);
            p.before + p.excerpt + p.after == text
  {
    var p := SplitTextInThree(text, sl, sc, el, ec);
    MarkedJoin(text, sl, sc, el, ec, "", "");
    MarkedNothing(Lines(text), sl, sc, el, ec);
    assert "" + p.excerpt + "" == p.excerpt;
    JoinSplitOn(text, '\n');
  }

  /** The code as written agrees with the corrected split except when the range ends
      on the line right after its start line. */
  lemma AsWrittenAgrees(text: string, sl: int, sc: int, el: int, ec: int)
    requires ValidSpan(Lines(text), sl, sc, el, ec)
    requires el != sl + 1
    ensures SplitTextInThreeAsWritten(text, sl, sc, el, ec) == SplitTextInThree(text, sl, sc, el, ec)
  {
    var lines := Lines(text);
    if sl < el {
      var mid := lines[sl + 1..el];
      var head := [lines[sl][sc..]];
      var last := [lines[el][..ec]];
      JoinAppend(head, [Join(mid, "\n")] + last, "\n");
      JoinAppend([Join(mid, "\n")], last, "\n");
      JoinAppend(head, mid + last, "\n");
      JoinAppend(mid, last, "\n");
      assert head + [Join(mid, "\n")] + last == head + ([Join(mid, "\n")] + last);
      assert head + mid + last == head + (mid + last);
    }
  }

  /** On adjacent lines the corrected excerpt has one line break between the tail
      of the start line and the head of the end line; the excerpt as written has two. */
  lemma AdjacentExcerpts(lines: seq<string>, sl: int, sc: int, el: int, ec: int)
    requires ValidSpan(lines, sl, sc, el, ec) && el == sl + 1
    ensures Excerpt(lines, sl, sc, el, ec) == lines[sl][sc..] + "\n" + lines[el][..ec]
    ensures ExcerptAsWritten(lines, sl, sc, el, ec) == lines[sl][sc..] + "\n\n" + lines[el][..ec]
  {
    var u := lines[sl][sc..];
    var v := lines[el][..ec];
    assert lines[sl + 1..el] == [];
    JoinCons(u, [v], "\n");
    assert [u] + lines[sl + 1..el] + [v] == [u] + [v];
    JoinCons(u, [""] + [v], "\n");
    JoinCons("", [v], "\n");
    assert [u] + [Join(lines[sl + 1..el], "\n")] + [v] == [u] + ([""] + [v]);
  }

  /** The text before a range plus the tail of its start line is the script up to
      the end of that line. */
  lemma BeforeAndTail(lines: seq<string>, sl: int, sc: int)
    requires 0 <= sl < |lines| && 0 <= sc <= |lines[sl]|
    ensures Before(lines, sl, sc) + lines[sl][sc..] == Join(lines[..sl + 1], "\n")
  {
    var none: seq<string> := [];
    JoinGlue(lines[..sl], lines[sl][..sc], lines[sl][sc..], "", none, "\n");
    assert lines[sl][..sc] + lines[sl][sc..] + "" == lines[sl];
    assert lines[..sl] + [lines[sl]] + none == lines[..sl + 1];
    assert [""] + none == [""];
    assert lines[..sl] + [lines[sl][..sc]] + none == lines[..sl] + [lines[sl][..sc]];
  }

  /** When the range ends on the line right after its start line, the parts of the
      code as written rebuild the script with one extra line break, inserted where
      the start line ends. */
  lemma AsWrittenExtraLineBreak(text: string, sl: int, sc: int, el: int, ec: int)
    requires ValidSpan(Lines(text), sl, sc, el, ec)
    requires el == sl + 1
    ensures var lines := Lines(text);
            var q := SplitTextInThreeAsWritten(text, sl, sc, el, ec);
            var at := |Join(lines[..el], "\n")|;
            && at < |text| && text[at] == '\n'
            && q.before + q.excerpt + q.after == text[..at] + "\n" + text[at..]
            && q.before + q.excerpt + q.after != text
  {
    var lines := Lines(text);
    var q := SplitTextInThreeAsWritten(text, sl, sc, el, ec);
    var p := SplitTextInThree(text, sl, sc, el, ec);
    SplitRoundTrip(text, sl, sc, el, ec);
    var u := lines[sl][sc..];
    var v := lines[el][..ec];
    AdjacentExcerpts(lines, sl, sc, el, ec);
    BeforeAndTail(lines, sl, sc);
    var front := p.before + u;
    var back := v + p.after;
    assert text == front + "\n" + back;
    assert text[..|front|] == front;
    assert text[|front|..] == "\n" + back;
    assert q.before + q.excerpt + q.after == front + "\n" + "\n" + back;
  }

  /** A concrete instance: a range from column 1 of the first line to column 1 of
      the second line of "ab\ncd". */
  lemma AsWrittenCounterexample()
    ensures var q := SplitTextInThreeAsWritten("ab\ncd", 0, 1, 1, 1);
            q.before + q.excerpt + q.after == "ab\n\ncd"
  {
    var text := "ab\ncd";
    var lines: seq<string> := ["ab", "cd"];
    JoinCons("ab", ["cd"], "\n");
    assert Join(lines, "\n") == text;
    SplitOnJoin(lines, '\n');
    assert Lines(text) == lines;
    AsWrittenExtraLineBreak(text, 0, 1, 1, 1);
    assert Join(lines[..1], "\n") == "ab";
    assert text[..2] + "\n" + text[2..] == "ab\n\ncd";
  }

  // ---------------------------------------------------------------------------
  // Diagnostics

  /** A script position: `line` counts from 1, `chr` from 0. */
  datatype Position = Position(line: int, chr: int)

  datatype Range = Range(fromPos: Position, toPos: Position)

  /** One diagnostic reported by the Kappa parser. */
  datatype ErrorItem = ErrorItem(severity: string, text: string, range: Range)

  /** Terminal styling (bold and a colour name): what it writes before and after the
      styled text, as a function of the colour. */
  datatype Painter = Painter(prefix: string -> string, suffix: string -> string)

  function Colored(painter: Painter, s: string, color: string): string
  {
    painter.prefix(color) + s + painter.suffix(color)
  }

  /** Styling that never writes a line break. */
  ghost predicate Plain(painter: Painter)
  {
    forall color :: '\n' !in painter.prefix(color) && '\n' !in painter.suffix(color)
  }

  /** The colour table of the formatter. */
  const Colors: map<string, string> := map["error" := "red", "warning" := "orange"]

  /** The colour of a severity: listed severities get their colour and every other
      one falls back to black; the lookup never fails. */
  function ColorOf(severity: string): (color: string)
    ensures color == "red" <==> severity == "error"
    ensures color == "orange" <==> severity == "warning"
    ensures color == "black" <==> severity !in Colors
  {
    if severity in Colors then Colors[severity] else "black"
  }

  function StartLine(item: ErrorItem): int { item.range.fromPos.line - 1 }
  function StartChr(item: ErrorItem): int { item.range.fromPos.chr }
  function EndLine(item: ErrorItem): int { item.range.toPos.line - 1 }
  function EndChr(item: ErrorItem): int { item.range.toPos.chr }

  /** The diagnostic's range, converted to 0-based lines, lies in the script. */
  predicate ValidItem(text: string, item: ErrorItem)
  {
    ValidSpan(Lines(text), StartLine(item), StartChr(item), EndLine(item), EndChr(item))
  }

  function Header(item: ErrorItem): string
  {
    "[" + item.severity + "] " + item.text
  }

  /** First line of the context window: two lines above the start line, never
      before the first line. */
  function WindowStart(item: ErrorItem): nat
  {
    Max(0, StartLine(item) - 2)
  }

  /** `_format_error_item`: the coloured header, a blank line, and the script lines
      `WindowStart` up to (excluding) two past the end line, with the excerpt coloured. */
  function FormatErrorItem(painter: Painter, item: ErrorItem, text: string): string
    requires ValidItem(text, item)
  {
    var color := ColorOf(item.severity);
    var sl := StartLine(item);
    var el := EndLine(item);
    var parts := SplitTextInThree(text, sl, StartChr(item), el, EndChr(item));
    var body := parts.before + Colored(painter, parts.excerpt, color) + parts.after;
    Colored(painter, Header(item), color) + "\n\n" + LinesSubtext(body, WindowStart(item), el + 2)
  }

  lemma MarkedPlain(lines: seq<string>, sl: int, sc: int, el: int, ec: int, open: string, close: string)
    requires ValidSpan(lines, sl, sc, el, ec)
    requires forall k :: 0 <= k < |lines| ==> '\n' !in lines[k]
    requires '\n' !in open && '\n' !in close
    ensures var m := Marked(lines, sl, sc, el, ec, open, close);
            forall k :: 0 <= k < |m| ==> '\n' !in m[k]
  {
    NotInSlice(lines[sl], '\n', 0, sc);
    NotInSlice(lines[sl], '\n', sc, |lines[sl]|);
    NotInSlice(lines[el], '\n', 0, ec);
    NotInSlice(lines[el], '\n', ec, |lines[el]|);
    if sl == el {
      NotInSlice(lines[sl], '\n', sc, ec);
    }
  }

  /** What one diagnostic's block shows: the coloured header, a blank line, then the
      script's lines from up to two lines above the start line to one line below
      the end line (clamped to the script), with the colour switched on at the
      start position and off at the end position. */
  lemma FormatErrorItemWindow(painter: Painter, item: ErrorItem, text: string)
    requires ValidItem(text, item)
    requires Plain(painter)
    ensures var lines := Lines(text);
            var color := ColorOf(item.severity);
            var sl := StartLine(item);
            var el := EndLine(item);
            var lo := WindowStart(item);
            var hi := Min(el + 2, |lines|);
            var m := Marked(lines, sl, StartChr(item), el, EndChr(item),
                            painter.prefix(color), painter.suffix(color));
            && lo <= sl && sl - lo == Min(sl, 2)
            && el < hi && hi - 1 - el == Min(1, |lines| - 1 - el)
            && FormatErrorItem(painter, item, text)
               == Colored(painter, Header(item), color) + "\n\n" + Join(m[lo..hi], "\n")
  {
    var lines := Lines(text);
    var color := ColorOf(item.severity);
    var sl, sc, el, ec := StartLine(item), StartChr(item), EndLine(item), EndChr(item);
    var open, close := painter.prefix(color), painter.suffix(color);
    var p := SplitTextInThree(text, sl, sc, el, ec);
    var m := Marked(lines, sl, sc, el, ec, open, close);
    var body := p.before + Colored(painter, p.excerpt, color) + p.after;
    MarkedJoin(text, sl, sc, el, ec, open, close);
    assert body == Join(m, "\n");
    MarkedPlain(lines, sl, sc, el, ec, open, close);
    SplitOnJoin(m, '\n');
    var lo := WindowStart(item);
    var hi := Min(el + 2, |lines|);
    assert Slice(Lines(body), lo, el + 2) == m[lo..hi];
  }

  /** `_format_error_item` built on `split_text_in_three` exactly as written. */
  function FormatErrorItemAsWritten(painter: Painter, item: ErrorItem, text: string): string
    requires ValidItem(text, item)
  {
    var color := ColorOf(item.severity);
    var el := EndLine(item);
    var parts := SplitTextInThreeAsWritten(text, StartLine(item), StartChr(item), el, EndChr(item));
    var body := parts.before + Colored(painter, parts.excerpt, color) + parts.after;
    Colored(painter, Header(item), color) + "\n\n" + LinesSubtext(body, WindowStart(item), el + 2)
  }

  /** Unless the range ends on the line right after its start line, the block the
      code as written prints is the corrected one. */
  lemma AsWrittenItemAgrees(painter: Painter, item: ErrorItem, text: string)
    requires ValidItem(text, item)
    requires EndLine(item) != StartLine(item) + 1
    ensures FormatErrorItemAsWritten(painter, item, text) == FormatErrorItem(painter, item, text)
  {
    AsWrittenAgrees(text, StartLine(item), StartChr(item), EndLine(item), EndChr(item));
  }

  /** The script up to the end of the start line, with `open` inserted, is the
      marked lines up to the start line. */
  lemma MarkedHead(lines: seq<string>, sl: int, sc: int, el: int, ec: int, open: string, close: string)
    requires ValidSpan(lines, sl, sc, el, ec) && sl < el
    ensures Before(lines, sl, sc) + open + lines[sl][sc..]
         == Join(Marked(lines, sl, sc, el, ec, open, close)[..sl + 1], "\n")
  {
    var none: seq<string> := [];
    var m := Marked(lines, sl, sc, el, ec, open, close);
    var h := lines[sl][..sc] + open + lines[sl][sc..];
    JoinGlue(lines[..sl], lines[sl][..sc], open + lines[sl][sc..], "", none, "\n");
    assert [""] + none == [""];
    assert lines[sl][..sc] + (open + lines[sl][sc..]) + "" == h;
    assert lines[..sl] + [h] + none == lines[..sl] + [h];
    assert m[..sl + 1] == lines[..sl] + [h] by {
      forall k | 0 <= k <= sl ensures m[k] == (lines[..sl] + [h])[k] {}
    }
  }

  /** The script from the start of the end line, with `close` inserted, is the
      marked lines from the end line on. */
  lemma MarkedTail(lines: seq<string>, sl: int, sc: int, el: int, ec: int, open: string, close: string)
    requires ValidSpan(lines, sl, sc, el, ec) && sl < el
    ensures lines[el][..ec] + close + After(lines, el, ec)
         == Join(Marked(lines, sl, sc, el, ec, open, close)[el..], "\n")
  {
    var none: seq<string> := [];
    var m := Marked(lines, sl, sc, el, ec, open, close);
    var t := lines[el][..ec] + close + lines[el][ec..];
    JoinGlue(none, "", lines[el][..ec] + close, lines[el][ec..], lines[el + 1..], "\n");
    assert none + [""] == [""];
    assert "" + (lines[el][..ec] + close) + lines[el][ec..] == t;
    assert none + [t] + lines[el + 1..] == [t] + lines[el + 1..];
    assert m[el..] == [t] + lines[el + 1..] by {
      forall k | 0 <= k < |lines| - el ensures m[el..][k] == ([t] + lines[el + 1..])[k] {}
    }
  }

  /** Lines of the marked head: the marked lines up to the start line. */
  lemma MarkedHeadLines(lines: seq<string>, sl: int, sc: int, el: int, ec: int, open: string, close: string)
    requires ValidSpan(lines, sl, sc, el, ec) && sl < el
    requires forall k :: 0 <= k < |lines| ==> '\n' !in lines[k]
    requires '\n' !in open && '\n' !in close
    ensures SplitOn(Before(lines, sl, sc) + open + lines[sl][sc..], '\n')
         == Marked(lines, sl, sc, el, ec, open, close)[..sl + 1]
  {
    MarkedHead(lines, sl, sc, el, ec, open, close);
    MarkedPlain(lines, sl, sc, el, ec, open, close);
    SplitOnJoin(Marked(lines, sl, sc, el, ec, open, close)[..sl + 1], '\n');
  }

  /** Lines of the marked tail: the marked lines from the end line on. */
  lemma MarkedTailLines(lines: seq<string>, sl: int, sc: int, el: int, ec: int, open: string, close: string)
    requires ValidSpan(lines, sl, sc, el, ec) && sl < el
    requires forall k :: 0 <= k < |lines| ==> '\n' !in lines[k]
    requires '\n' !in open && '\n' !in close
    ensures SplitOn(lines[el][..ec] + close + After(lines, el, ec), '\n')
         == Marked(lines, sl, sc, el, ec, open, close)[el..]
  {
    MarkedTail(lines, sl, sc, el, ec, open, close);
    MarkedPlain(lines, sl, sc, el, ec, open, close);
    SplitOnJoin(Marked(lines, sl, sc, el, ec, open, close)[el..], '\n');
  }

  /** Wrapping `u + "\n\n" + v` in `open`/`close` between `b` and `a` gives the
      lines of `b + open + u`, one empty line, and the lines of `v + close + a`. */
  lemma BlankLineInside(b: string, u: string, v: string, a: string, open: string, close: string)
    ensures SplitOn(b + (open + (u + "\n\n" + v) + close) + a, '\n')
         == SplitOn(b + open + u, '\n') + [""] + SplitOn(v + close + a, '\n')
  {
    assert b + (open + (u + "\n\n" + v) + close) + a == (b + open + u) + "\n\n" + (v + close + a);
    SplitAtBlankLine(b + open + u, v + close + a);
  }

  /** When the range ends on the line right after its start line, the marked body
      the code as written builds has the marked lines with one empty line inserted
      before the end line. */
  lemma AdjacentMarkedLines(lines: seq<string>, sl: int, sc: int, el: int, ec: int, open: string, close: string)
    requires ValidSpan(lines, sl, sc, el, ec) && el == sl + 1
    requires forall k :: 0 <= k < |lines| ==> '\n' !in lines[k]
    requires '\n' !in open && '\n' !in close
    ensures var m := Marked(lines, sl, sc, el, ec, open, close);
            SplitOn(Before(lines, sl, sc) + (open + ExcerptAsWritten(lines, sl, sc, el, ec) + close)
                    + After(lines, el, ec), '\n')
            == m[..el] + [""] + m[el..]
  {
    AdjacentExcerpts(lines, sl, sc, el, ec);
    MarkedHeadLines(lines, sl, sc, el, ec, open, close);
    MarkedTailLines(lines, sl, sc, el, ec, open, close);
    BlankLineInside(Before(lines, sl, sc), lines[sl][sc..], lines[el][..ec], After(lines, el, ec), open, close);
  }

  /** When the range ends on the line right after its start line, the code as
      written shows no line after the range, and a blank line stands between the
      start line and the end line. When the end line is not the last line, the
      window keeps its length and the line after the range drops out; when it is
      the last line, the block as written has one extra blank line. */
  lemma AsWrittenItemWindow(painter: Painter, item: ErrorItem, text: string)
    requires ValidItem(text, item)
    requires Plain(painter)
    requires EndLine(item) == StartLine(item) + 1
    ensures var lines := Lines(text);
            var color := ColorOf(item.severity);
            var el := EndLine(item);
            var m := Marked(lines, StartLine(item), StartChr(item), el, EndChr(item),
                            painter.prefix(color), painter.suffix(color));
            FormatErrorItemAsWritten(painter, item, text)
            == Colored(painter, Header(item), color) + "\n\n"
               + Join(m[WindowStart(item)..el] + ["", m[el]], "\n")
  {
    var lines := Lines(text);
    var color := ColorOf(item.severity);
    var sl, sc, el, ec := StartLine(item), StartChr(item), EndLine(item), EndChr(item);
    var open, close := painter.prefix(color), painter.suffix(color);
    var q := SplitTextInThreeAsWritten(text, sl, sc, el, ec);
    var m := Marked(lines, sl, sc, el, ec, open, close);
    var body := q.before + Colored(painter, q.excerpt, color) + q.after;
    AdjacentMarkedLines(lines, sl, sc, el, ec, open, close);
    var w := m[..el] + [""] + m[el..];
    assert Lines(body) == w;
    var lo := WindowStart(item);
    assert Slice(w, lo, el + 2) == m[lo..el] + ["", m[el]];
  }

  /** The three lines of `"a\nb\nc"`. */
  lemma ExampleLines()
    ensures Lines("a\nb\nc") == ["a", "b", "c"]
  {
    assert "a\nb\nc" == "a" + ['\n'] + ("b" + ['\n'] + "c");
    SplitOnSeparator("a", "b" + ['\n'] + "c", '\n');
    SplitOnSeparator("b", "c", '\n');
    SplitOnNoSeparator("a", '\n');
    SplitOnNoSeparator("b", '\n');
    SplitOnNoSeparator("c", '\n');
  }

  /** The unstyled painter and the diagnostic of the example below. */
  ghost predicate ExampleInput(painter: Painter, item: ErrorItem, text: string)
  {
    && (forall color :: painter.prefix(color) == "" && painter.suffix(color) == "")
    && item == ErrorItem("error", "m", Range(Position(1, 0), Position(2, 1)))
    && text == "a\nb\nc"
  }

  /** `"a\nb\nc"` with a diagnostic from line 1 column 0 to line 2 column 1 and no
      styling: the corrected block shows all three lines. */
  lemma CorrectedItemExample(painter: Painter, item: ErrorItem, text: string)
    requires ExampleInput(painter, item, text)
    ensures ValidItem(text, item)
    ensures FormatErrorItem(painter, item, text) == "[error] m\n\na\nb\nc"
  {
    var lines := Lines(text);
    ExampleLines();
    assert ValidItem(text, item);
    var header := Colored(painter, Header(item), ColorOf(item.severity));
    assert header == "[error] m";
    var m := Marked(lines, 0, 0, 1, 1, "", "");
    assert m == lines by {
      MarkedNothing(lines, 0, 0, 1, 1);
    }
    assert FormatErrorItem(painter, item, text) == header + "\n\n" + Join(m[0..3], "\n") by {
      FormatErrorItemWindow(painter, item, text);
    }
    assert m[0..3] == ["a", "b", "c"];
    assert Join(["a", "b", "c"], "\n") == "a\nb\nc" by {
      JoinCons("a", ["b", "c"], "\n");
      JoinCons("b", ["c"], "\n");
    }
  }

  /** The same diagnostic through the code as written: a blank line takes the
      place of the third line. */
  lemma AsWrittenItemExample(painter: Painter, item: ErrorItem, text: string)
    requires ExampleInput(painter, item, text)
    ensures ValidItem(text, item)
    ensures FormatErrorItemAsWritten(painter, item, text) == "[error] m\n\na\n\nb"
  {
    var lines := Lines(text);
    ExampleLines();
    assert ValidItem(text, item);
    AsWrittenItemWindow(painter, item, text);
    MarkedNothing(lines, 0, 0, 1, 1);
    assert lines[0..1] + ["", lines[1]] == ["a", "", "b"];
    JoinCons("a", ["", "b"], "\n");
    JoinCons("", ["b"], "\n");
  }

  /** The two lines of `"a\nb"`. */
  lemma LastLineExampleLines()
    ensures Lines("a\nb") == ["a", "b"]
  {
    assert "a\nb" == "a" + ['\n'] + "b";
    SplitOnSeparator("a", "b", '\n');
    SplitOnNoSeparator("a", '\n');
    SplitOnNoSeparator("b", '\n');
  }

  /** The unstyled painter and a diagnostic that ends on the last line. */
  ghost predicate LastLineExampleInput(painter: Painter, item: ErrorItem, text: string)
  {
    && (forall color :: painter.prefix(color) == "" && painter.suffix(color) == "")
    && item == ErrorItem("error", "m", Range(Position(1, 0), Position(2, 1)))
    && text == "a\nb"
  }

  /** `"a\nb"` with a diagnostic from line 1 column 0 to line 2 column 1, the last
      line: the corrected block shows the two lines. */
  lemma CorrectedLastLineExample(painter: Painter, item: ErrorItem, text: string)
    requires LastLineExampleInput(painter, item, text)
    ensures ValidItem(text, item)
    ensures FormatErrorItem(painter, item, text) == "[error] m\n\na\nb"
  {
    var lines := Lines(text);
    LastLineExampleLines();
    assert ValidItem(text, item);
    var header := Colored(painter, Header(item), ColorOf(item.severity));
    assert header == "[error] m";
    var m := Marked(lines, 0, 0, 1, 1, "", "");
    assert m == lines by {
      MarkedNothing(lines, 0, 0, 1, 1);
    }
    assert FormatErrorItem(painter, item, text) == header + "\n\n" + Join(m[0..2], "\n") by {
      FormatErrorItemWindow(painter, item, text);
    }
    assert m[0..2] == ["a", "b"];
    JoinCons("a", ["b"], "\n");
  }

  /** The same diagnostic through the code as written: there is no line after the
      range to drop, so the block shows one line more than the corrected one, a
      blank line between the two. */
  lemma AsWrittenLastLineExample(painter: Painter, item: ErrorItem, text: string)
    requires LastLineExampleInput(painter, item, text)
    ensures ValidItem(text, item)
    ensures FormatErrorItemAsWritten(painter, item, text) == "[error] m\n\na\n\nb"
  {
    var lines := Lines(text);
    LastLineExampleLines();
    assert ValidItem(text, item);
    AsWrittenItemWindow(painter, item, text);
    MarkedNothing(lines, 0, 0, 1, 1);
    assert lines[0..1] + ["", lines[1]] == ["a", "", "b"];
    JoinCons("a", ["", "b"], "\n");
    JoinCons("", ["b"], "\n");
  }

  /** The blocks of a list of diagnostics, in the order given. */
  function Blocks(painter: Painter, items: seq<ErrorItem>, text: string): (r: seq<string>)
    requires forall k :: 0 <= k < |items| ==> ValidItem(text, items[k])
    ensures |r| == |items|
    ensures forall k :: 0 <= k < |items| ==> r[k] == FormatErrorItem(painter, items[k], text)
  {
    seq(|items|, k requires 0 <= k < |items| => FormatErrorItem(painter, items[k], text))
  }

  /** `formatted_string`: the blocks joined by blank lines. */
  function FormattedString(painter: Painter, items: seq<ErrorItem>, text: string): string
    requires forall k :: 0 <= k < |items| ==> ValidItem(text, items[k])
  {
    Join(Blocks(painter, items, text), "\n\n")
  }

  /** The report keeps the diagnostics in the order given: the report of a list
      split in two is the first half's report, a blank line, and the second half's;
      no diagnostics give an empty report and one gives its own block. */
  lemma FormattedStringOrder(painter: Painter, xs: seq<ErrorItem>, ys: seq<ErrorItem>, text: string)
    requires forall k :: 0 <= k < |xs| ==> ValidItem(text, xs[k])
    requires forall k :: 0 <= k < |ys| ==> ValidItem(text, ys[k])
    ensures |xs| == 0 ==> FormattedString(painter, xs, text) == ""
    ensures |xs| == 1 ==> FormattedString(painter, xs, text) == FormatErrorItem(painter, xs[0], text)
    ensures |xs| > 0 && |ys| > 0 ==>
              FormattedString(painter, xs + ys, text)
              == FormattedString(painter, xs, text) + "\n\n" + FormattedString(painter, ys, text)
  {
    if |xs| > 0 && |ys| > 0 {
      var all := xs + ys;
      assert forall k :: 0 <= k < |all| ==> ValidItem(text, all[k]) by {
        forall k | 0 <= k < |all| ensures ValidItem(text, all[k]) {
          if k < |xs| { assert all[k] == xs[k]; } else { assert all[k] == ys[k - |xs|]; }
        }
      }
      var b, bx, bys := Blocks(painter, all, text), Blocks(painter, xs, text), Blocks(painter, ys, text);
      forall k | 0 <= k < |b| ensures b[k] == (bx + bys)[k] {
        if k < |xs| {
          assert all[k] == xs[k];
        } else {
          assert all[k] == ys[k - |xs|];
        }
      }
      assert b == bx + bys;
      JoinAppend(Blocks(painter, xs, text), Blocks(painter, ys, text), "\n\n");
    }
  }
}

=== FILE: kappa_classes.dfy ===
/** The Kappa building blocks: agents with their sites, site states, and rules,
    each with the line of Kappa script it renders to, and a reader for that line. */
module KappaClasses {
  import opened Outcomes
  import opened Text

  // ---------------------------------------------------------------------------
  // Agents

  /** An agent type and the names of its binding sites. */
  datatype Agent = Agent(name: string, sites: seq<string>)

  /** The agent's `%agent:` declaration; it is also what `str(agent)` prints. */
  function Declaration(agent: Agent): string
  {
    "%agent: " + agent.name + "(" + Join(agent.sites, ", ") + ")"
  }

  /** Drops the one space that follows each comma of a site list. */
  function Unindent(s: string): string
  {
    if |s| > 0 && s[0] == ' ' then s[1..] else s
  }

  function Indent(parts: seq<string>): (r: seq<string>)
    ensures |r| == |parts|
    ensures forall k :: 0 <= k < |r| ==> r[k] == " " + parts[k]
  {
    seq(|parts|, k requires 0 <= k < |parts| => " " + parts[k])
  }

  function UnindentAll(parts: seq<string>): (r: seq<string>)
    ensures |r| == |parts|
    ensures forall k :: 0 <= k < |r| ==> r[k] == Unindent(parts[k])
  {
    seq(|parts|, k requires 0 <= k < |parts| => Unindent(parts[k]))
  }

  /** Reads a site list written as `a, b, c`. */
  function ParseSites(list: string): seq<string>
  {
    if list == "" then []
    else
      var pieces := SplitOn(list, ',');
      [pieces[0]] + UnindentAll(pieces[1..])
  }

  /** Reads back a `%agent:` declaration. */
  function ParseDeclaration(s: string): Option<Agent>
  {
    var t :- StripPrefix(s, "%agent: ");
    var u :- StripSuffix(t, ")");
    var p :- SplitFirst(u, '(');
    Some(Agent(p.0, ParseSites(p.1)))
  }

  /** An agent whose declaration can be read back: no parenthesis in its name, no
      comma in a site name, and not a single unnamed site (which would print like
      no site at all). */
  predicate Declarable(agent: Agent)
  {
    && '(' !in agent.name
    && (forall k :: 0 <= k < |agent.sites| ==> ',' !in agent.sites[k])
    && agent.sites != [""]
  }

  lemma {:induction false} JoinCommaSpace(parts: seq<string>)
    requires |parts| > 0
    ensures Join(parts, ", ") == Join([parts[0]] + Indent(parts[1..]), ",")
    decreases |parts|
  {
    if |parts| > 1 {
      var rest := parts[1..];
      JoinCommaSpace(rest);
      assert Indent(rest) == [" " + rest[0]] + Indent(rest[1..]);
      JoinGlue([], "", " ", rest[0], Indent(rest[1..]), ",");
      assert [""] == [] + [""];
      assert "" + " " + rest[0] == " " + rest[0];
      assert [] + [" " + rest[0]] + Indent(rest[1..]) == Indent(rest);
      JoinCons(parts[0], Indent(rest), ",");
    }
  }

  lemma SiteListNotEmpty(sites: seq<string>)
    requires |sites| > 0 && sites != [""]
    ensures Join(sites, ", ") != ""
  {
    if |sites| > 1 {
      JoinCons(sites[0], sites[1..], ", ");
      assert [sites[0]] + sites[1..] == sites;
    } else {
      assert sites == [sites[0]];
    }
  }

  lemma UnindentIndent(parts: seq<string>)
    ensures UnindentAll(Indent(parts)) == parts
  {
    var back := UnindentAll(Indent(parts));
    forall k | 0 <= k < |parts| ensures back[k] == parts[k] {
      assert Indent(parts)[k] == " " + parts[k];
    }
  }

  lemma SplitSiteList(sites: seq<string>)
    requires |sites| > 0
    requires forall k :: 0 <= k < |sites| ==> ',' !in sites[k]
    ensures SplitOn(Join(sites, ", "), ',') == [sites[0]] + Indent(sites[1..])
  {
    JoinCommaSpace(sites);
    var pieces := [sites[0]] + Indent(sites[1..]);
    forall k | 0 <= k < |pieces| ensures ',' !in pieces[k] {
      if k > 0 {
        assert pieces[k] == " " + sites[k];
      }
    }
    SplitOnJoin(pieces, ',');
  }

  lemma SitesRoundTrip(sites: seq<string>)
    requires forall k :: 0 <= k < |sites| ==> ',' !in sites[k]
    requires sites != [""]
    ensures ParseSites(Join(sites, ", ")) == sites
  {
    if |sites| > 0 {
      var list := Join(sites, ", ");
      SiteListNotEmpty(sites);
      SplitSiteList(sites);
      var pieces := SplitOn(list, ',');
      assert pieces[0] == sites[0];
      assert pieces[1..] == Indent(sites[1..]);
      UnindentIndent(sites[1..]);
      assert ParseSites(list) == [pieces[0]] + UnindentAll(pieces[1..]);
      assert [sites[0]] + sites[1..] == sites;
    }
  }

  /** A declarable agent's declaration reads back as the same agent. */
  lemma DeclarationRoundTrip(agent: Agent)
    requires Declarable(agent)
    ensures ParseDeclaration(Declaration(agent)) == Some(agent)
  {
    var list := Join(agent.sites, ", ");
    var inner := agent.name + "(" + list;
    assert Declaration(agent) == "%agent: " + (inner + ")");
    StripPrefixOf("%agent: ", inner + ")");
    StripSuffixOf(inner, ")");
    SplitFirstAt(agent.name, list, '(');
    SitesRoundTrip(agent.sites);
  }

  // ---------------------------------------------------------------------------
  // Site states

  /** The agent of a site state: a declared agent, or just an agent name. */
  datatype AgentRef = Declared(agent: Agent) | Named(name: string)

  function NameOf(ref: AgentRef): string
  {
    match ref
    case Declared(agent) => agent.name
    case Named(name) => name
  }

  /** A site of an agent in a given state (`.` for free, a bond label, ...). */
  datatype SiteState = SiteState(agent: AgentRef, site: string, state: string)

  datatype Error = ValueError(message: string)

  /** A site state never names a site its declared agent lacks. */
  predicate Consistent(s: SiteState)
  {
    s.agent.Declared? ==> s.site in s.agent.agent.sites
  }

  /** The site-state constructor: it refuses a declared agent that lacks the site,
      with a message naming the agent by its declaration; a bare agent name is never
      checked. The state defaults to `.`. */
  function NewSiteState(agent: AgentRef, site: string, state: string := "."): (r: Result<SiteState, Error>)
    ensures r.Failure? <==> agent.Declared? && site !in agent.agent.sites
    ensures r.Success? ==> r.value == SiteState(agent, site, state) && Consistent(r.value)
    ensures r.Failure? ==> r.error == ValueError(Declaration(agent.agent) + " has not site " + site)
  {
    if agent.Declared? && site !in agent.agent.sites then
      Failure(ValueError(Declaration(agent.agent) + " has not site " + site))
    else
      Success(SiteState(agent, site, state))
  }

  /** `agent(site[state])`. */
  function Render(s: SiteState): string
  {
    NameOf(s.agent) + "(" + s.site + "[" + s.state + "])"
  }

  /** A site state as its rendering records it: the agent by name only. */
  function ByName(s: SiteState): SiteState
  {
    SiteState(Named(NameOf(s.agent)), s.site, s.state)
  }

  /** Reads back `agent(site[state])`. */
  function ParseSiteState(s: string): Option<SiteState>
  {
    var u :- StripSuffix(s, "])");
    var p :- SplitFirst(u, '(');
    var q :- SplitFirst(p.1, '[');
    Some(SiteState(Named(p.0), q.0, q.1))
  }

  /** A site state whose rendering can be read back: no parenthesis in the agent
      name and no bracket in the site name. */
  predicate Readable(s: SiteState)
  {
    '(' !in NameOf(s.agent) && '[' !in s.site
  }

  /** A readable site state's rendering reads back as the site state, with the
      agent known by name. */
  lemma SiteStateRoundTrip(s: SiteState)
    requires Readable(s)
    ensures ParseSiteState(Render(s)) == Some(ByName(s))
  {
    var name := NameOf(s.agent);
    var rest := s.site + "[" + s.state;
    assert Render(s) == (name + "(" + rest) + "])";
    StripSuffixOf(name + "(" + rest, "])");
    SplitFirstAt(name, rest, '(');
    SplitFirstAt(s.site, s.state, '[');
  }

  // ---------------------------------------------------------------------------
  // Rules

  /** A named rule: reactants, the sense of the arrow, products, and the rate as it
      is printed. */
  datatype Rule = Rule(name: string, reactants: seq<SiteState>, sense: string,
                       products: seq<SiteState>, rate: string)

  function Renderings(states: seq<SiteState>): (r: seq<string>)
    ensures |r| == |states|
    ensures forall k :: 0 <= k < |r| ==> r[k] == Render(states[k])
  {
    seq(|states|, k requires 0 <= k < |states| => Render(states[k]))
  }

  /** Site states rendered in order and separated by commas. */
  function RenderAll(states: seq<SiteState>): string
  {
    Join(Renderings(states), ",")
  }

  /** `'name' reactants sense products @ rate`. */
  function RuleText(rule: Rule): string
  {
    "'" + rule.name + "' " + RenderAll(rule.reactants) + " " + rule.sense + " "
      + RenderAll(rule.products) + " @ " + rule.rate
  }

  function ParseEach(pieces: seq<string>): Option<seq<SiteState>>
  {
    if |pieces| == 0 then Some([])
    else
      var first :- ParseSiteState(pieces[0]);
      var rest :- ParseEach(pieces[1..]);
      Some([first] + rest)
  }

  /** Reads back a comma-separated list of site states; nothing reads as no states. */
  function ParseSiteStates(list: string): Option<seq<SiteState>>
  {
    if list == "" then Some([]) else ParseEach(SplitOn(list, ','))
  }

  /** The five fields of a rule line: name, reactants, sense, products and rate. */
  function RuleFields(s: string): Option<(string, string, string, string, string)>
  {
    var t :- StripPrefix(s, "'");
    var named :- SplitFirst(t, '\'');
    var t2 :- StripPrefix(named.1, " ");
    var left :- SplitFirst(t2, ' ');
    var arrow :- SplitFirst(left.1, ' ');
    var right :- SplitFirst(arrow.1, ' ');
    var rate :- StripPrefix(right.1, "@ ");
    Some((named.0, left.0, arrow.0, right.0, rate))
  }

  /** Reads back a rule line. */
  function ParseRule(s: string): Option<Rule>
  {
    var f :- RuleFields(s);
    var reactants :- ParseSiteStates(f.1);
    var products :- ParseSiteStates(f.3);
    Some(Rule(f.0, reactants, f.2, products, f.4))
  }

  /** A site state that can sit in a rule line: readable, and free of spaces and
      commas. */
  predicate InRule(s: SiteState)
  {
    && Readable(s)
    && ' ' !in NameOf(s.agent) && ' ' !in s.site && ' ' !in s.state
    && ',' !in NameOf(s.agent) && ',' !in s.site && ',' !in s.state
  }

  /** A rule whose line can be read back: no quote in its name, no space in its
      sense, and site states that can sit in a rule line. */
  predicate ReadableRule(rule: Rule)
  {
    && '\'' !in rule.name
    && ' ' !in rule.sense
    && (forall k :: 0 <= k < |rule.reactants| ==> InRule(rule.reactants[k]))
    && (forall k :: 0 <= k < |rule.products| ==> InRule(rule.products[k]))
  }

  function AllByName(states: seq<SiteState>): (r: seq<SiteState>)
    ensures |r| == |states|
    ensures forall k :: 0 <= k < |r| ==> r[k] == ByName(states[k])
  {
    seq(|states|, k requires 0 <= k < |states| => ByName(states[k]))
  }

  /** A rule as its line records it: every agent known by name. */
  function RuleByName(rule: Rule): Rule
  {
    rule.(reactants := AllByName(rule.reactants), products := AllByName(rule.products))
  }

  lemma {:induction false} ParseEachRoundTrip(states: seq<SiteState>)
    requires forall k :: 0 <= k < |states| ==> Readable(states[k])
    ensures ParseEach(Renderings(states)) == Some(AllByName(states))
  {
    if |states| > 0 {
      SiteStateRoundTrip(states[0]);
      ParseEachRoundTrip(states[1..]);
      assert Renderings(states)[1..] == Renderings(states[1..]);
      assert AllByName(states) == [ByName(states[0])] + AllByName(states[1..]);
    }
  }

  lemma RenderPlain(s: SiteState, c: char)
    requires c != '(' && c != '[' && c != ']' && c != ')'
    requires c !in NameOf(s.agent) && c !in s.site && c !in s.state
    ensures c !in Render(s)
  {
  }

  /** A list of site states reads back; it contains no space. */
  lemma RenderAllRoundTrip(states: seq<SiteState>)
    requires forall k :: 0 <= k < |states| ==> InRule(states[k])
    ensures ParseSiteStates(RenderAll(states)) == Some(AllByName(states))
    ensures ' ' !in RenderAll(states)
  {
    var pieces := Renderings(states);
    forall k | 0 <= k < |states| ensures ',' !in pieces[k] && ' ' !in pieces[k] {
      RenderPlain(states[k], ',');
      RenderPlain(states[k], ' ');
    }
    NotInJoin(pieces, ",", ' ');
    ParseEachRoundTrip(states);
    if |states| > 0 {
      JoinLength(pieces, ",");
      assert RenderAll(states) != "";
      SplitOnJoin(pieces, ',');
    }
  }

  /** A rule line splits back into its fields when the name has no quote and the
      states and the sense have no space. */
  lemma RuleFieldsOf(name: string, rs: string, sense: string, ps: string, rate: string)
    requires '\'' !in name && ' ' !in rs && ' ' !in sense && ' ' !in ps
    ensures RuleFields("'" + name + "' " + rs + " " + sense + " " + ps + " @ " + rate)
         == Some((name, rs, sense, ps, rate))
  {
    var t6 := "@ " + rate;
    var t5 := ps + [' '] + t6;
    var t4 := sense + [' '] + t5;
    var t3 := rs + [' '] + t4;
    var t2 := " " + t3;
    var t := name + ['\''] + t2;
    var line := "'" + name + "' " + rs + " " + sense + " " + ps + " @ " + rate;
    assert line == "'" + t;
    StripPrefixOf("'", t);
    SplitFirstAt(name, t2, '\'');
    StripPrefixOf(" ", t3);
    SplitFirstAt(rs, t4, ' ');
    SplitFirstAt(sense, t5, ' ');
    SplitFirstAt(ps, t6, ' ');
    StripPrefixOf("@ ", rate);
  }

  /** A readable rule's line reads back as the rule, with agents known by name. */
  lemma RuleRoundTrip(rule: Rule)
    requires ReadableRule(rule)
    ensures ParseRule(RuleText(rule)) == Some(RuleByName(rule))
  {
    var rs := RenderAll(rule.reactants);
    var ps := RenderAll(rule.products);
    RenderAllRoundTrip(rule.reactants);
    RenderAllRoundTrip(rule.products);
    RuleFieldsOf(rule.name, rs, rule.sense, ps, rule.rate);
  }
}

=== FILE: kappa_model.dfy ===
/** A Kappa model and the script it is serialised to: five sections (agent
    declarations, rules, initial quantities, snapshot alarms, plotted observables)
    separated by blank lines; and the reshaping of the simulator's plot data into
    one column per legend label. */
module KappaModel {
  import opened Outcomes
  import opened Text
  import opened KappaClasses

  /** Something to plot: an agent (its count), a site state, or a raw observable. */
  datatype PlotItem = PlotAgent(agent: Agent) | PlotSite(state: SiteState) | PlotRaw(text: string)

  /** The model. Initial quantities and snapshot times are the source's
      dictionaries, kept as lists of pairs in insertion order. */
  datatype Model = Model(
    agents: seq<Agent>,
    rules: seq<Rule>,
    initialQuantities: seq<(AgentRef, int)>,
    snapshotTimes: seq<(string, real)>,
    plots: seq<PlotItem>)

  // ---------------------------------------------------------------------------
  // Lines of each section

  function Declarations(agents: seq<Agent>): (r: seq<string>)
    ensures |r| == |agents|
    ensures forall k :: 0 <= k < |r| ==> r[k] == Declaration(agents[k])
  {
    seq(|agents|, k requires 0 <= k < |agents| => Declaration(agents[k]))
  }

  function RuleLines(rules: seq<Rule>): (r: seq<string>)
    ensures |r| == |rules|
    ensures forall k :: 0 <= k < |r| ==> r[k] == RuleText(rules[k])
  {
    seq(|rules|, k requires 0 <= k < |rules| => RuleText(rules[k]))
  }

  /** `%init: n name()`, the agent given by its declaration or by name. */
  function InitLine(q: (AgentRef, int)): string
  {
    "%init: " + IntText(q.1) + " " + NameOf(q.0) + "()"
  }

  function InitLines(qs: seq<(AgentRef, int)>): (r: seq<string>)
    ensures |r| == |qs|
    ensures forall k :: 0 <= k < |r| ==> r[k] == InitLine(qs[k])
  {
    seq(|qs|, k requires 0 <= k < |qs| => InitLine(qs[k]))
  }

  /** `%mod: alarm t do $SNAPSHOT "id";`, with `t` as the time formatter prints it. */
  function SnapshotLine(id: string, time: string): string
  {
    "%mod: alarm " + time + " do $SNAPSHOT \"" + id + "\";"
  }

  function SnapshotLines(snaps: seq<(string, real)>, formatTime: real -> string): (r: seq<string>)
    ensures |r| == |snaps|
    ensures forall k :: 0 <= k < |r| ==> r[k] == SnapshotLine(snaps[k].0, formatTime(snaps[k].1))
  {
    seq(|snaps|, k requires 0 <= k < |snaps| => SnapshotLine(snaps[k].0, formatTime(snaps[k].1)))
  }

  /** `_auto_plot_item_string`: agents and site states become `|...|` observables,
      anything else is used as it is. */
  function PlotItemString(item: PlotItem): string
  {
    match item
    case PlotAgent(agent) => "|" + agent.name + "()|"
    case PlotSite(state) => "|" + Render(state) + "|"
    case PlotRaw(text) => text
  }

  function PlotLine(item: PlotItem): string
  {
    "%plot: " + PlotItemString(item)
  }

  function PlotLines(plots: seq<PlotItem>): (r: seq<string>)
    ensures |r| == |plots|
    ensures forall k :: 0 <= k < |r| ==> r[k] == PlotLine(plots[k])
  {
    seq(|plots|, k requires 0 <= k < |plots| => PlotLine(plots[k]))
  }

  // ---------------------------------------------------------------------------
  // Sections and the full script

  function AgentsSection(m: Model): string { Join(Declarations(m.agents), "\n") }
  function RulesSection(m: Model): string { Join(RuleLines(m.rules), "\n") }
  function InitsSection(m: Model): string { Join(InitLines(m.initialQuantities), "\n") }
  function SnapshotsSection(m: Model, formatTime: real -> string): string
  {
    Join(SnapshotLines(m.snapshotTimes, formatTime), "\n")
  }
  function PlotsSection(m: Model): string { Join(PlotLines(m.plots), "\n") }

  /** `_full_kappa_script`: the five sections in a fixed order, separated by blank lines. */
  function FullScript(m: Model, formatTime: real -> string): string
  {
    Join([AgentsSection(m), RulesSection(m), InitsSection(m),
          SnapshotsSection(m, formatTime), PlotsSection(m)], "\n\n")
  }

  /** The lines a section contributes to the script: its own lines, or one empty
      line when it has none. */
  function Block(lines: seq<string>): (r: seq<string>)
    ensures |r| >= 1
  {
    if |lines| == 0 then [""] else lines
  }

  lemma SectionLines(lines: seq<string>)
    requires forall k :: 0 <= k < |lines| ==> '\n' !in lines[k]
    ensures SplitOn(Join(lines, "\n"), '\n') == Block(lines)
  {
    if |lines| > 0 {
      SplitOnJoin(lines, '\n');
    }
  }

  /** Blocks of lines stacked with one empty line between neighbours. */
  function Stack(blocks: seq<seq<string>>): seq<string>
  {
    if |blocks| == 0 then []
    else if |blocks| == 1 then blocks[0]
    else blocks[0] + [""] + Stack(blocks[1..])
  }

  function LinesOfEach(texts: seq<string>): (r: seq<seq<string>>)
    ensures |r| == |texts|
    ensures forall k :: 0 <= k < |r| ==> r[k] == SplitOn(texts[k], '\n')
  {
    seq(|texts|, k requires 0 <= k < |texts| => SplitOn(texts[k], '\n'))
  }

  /** Whatever the texts hold, joining them with blank lines stacks their lines with
      one empty line between neighbours. */
  lemma {:induction false} BlankLineJoin(texts: seq<string>)
    requires |texts| > 0
    ensures SplitOn(Join(texts, "\n\n"), '\n') == Stack(LinesOfEach(texts))
  {
    if |texts| > 1 {
      BlankLineJoin(texts[1..]);
      SplitAtBlankLine(texts[0], Join(texts[1..], "\n\n"));
      assert LinesOfEach(texts)[1..] == LinesOfEach(texts[1..]);
    }
  }

  // ---------------------------------------------------------------------------
  // Reading lines back

  /** Reads back an `%init:` line as the agent name and the quantity. */
  function ParseInit(line: string): Option<(string, int)>
  {
    var t :- StripPrefix(line, "%init: ");
    var p :- SplitFirst(t, ' ');
    var n :- ParseInt(p.0);
    var name :- StripSuffix(p.1, "()");
    Some((name, n))
  }

  /** Every `%init:` line reads back as its agent's name and quantity. */
  lemma InitLineRoundTrip(q: (AgentRef, int))
    ensures ParseInit(InitLine(q)) == Some((NameOf(q.0), q.1))
  {
    var number := IntText(q.1);
    var rest := NameOf(q.0) + "()";
    assert InitLine(q) == "%init: " + (number + [' '] + rest);
    StripPrefixOf("%init: ", number + [' '] + rest);
    IntTextPlain(q.1);
    SplitFirstAt(number, rest, ' ');
    ParseIntText(q.1);
    StripSuffixOf(NameOf(q.0), "()");
  }

  /** Reads back an alarm line as the printed time and the snapshot id. */
  function ParseSnapshot(line: string): Option<(string, string)>
  {
    var t :- StripPrefix(line, "%mod: alarm ");
    var p :- SplitFirst(t, ' ');
    var u :- StripPrefix(p.1, "do $SNAPSHOT \"");
    var id :- StripSuffix(u, "\";");
    Some((p.0, id))
  }

  /** An alarm line reads back as its time and snapshot id when the printed time has
      no space. */
  lemma SnapshotLineRoundTrip(id: string, time: string)
    requires ' ' !in time
    ensures ParseSnapshot(SnapshotLine(id, time)) == Some((time, id))
  {
    var tail := "do $SNAPSHOT \"" + (id + "\";");
    assert SnapshotLine(id, time) == "%mod: alarm " + (time + [' '] + tail);
    StripPrefixOf("%mod: alarm ", time + [' '] + tail);
    SplitFirstAt(time, tail, ' ');
    StripPrefixOf("do $SNAPSHOT \"", id + "\";");
    StripSuffixOf(id, "\";");
  }

  /** What a `%plot:` line plots: the observable between the bars, if it has them. */
  function PlotObservable(line: string): Option<string>
  {
    var t :- StripPrefix(line, "%plot: |");
    StripSuffix(t, "|")
  }

  /** A plotted agent is observed as `name()`, a plotted site state as its rendering,
      which reads back as the site state; a raw observable is written as given. */
  lemma PlotLineRoundTrip(item: PlotItem)
    ensures item.PlotAgent? ==> PlotObservable(PlotLine(item)) == Some(item.agent.name + "()")
    ensures item.PlotSite? && Readable(item.state) ==>
              && PlotObservable(PlotLine(item)) == Some(Render(item.state))
              && ParseSiteState(Render(item.state)) == Some(ByName(item.state))
    ensures item.PlotRaw? ==> PlotLine(item) == "%plot: " + item.text
  {
    match item
    case PlotAgent(agent) =>
      var inner := agent.name + "()";
      assert PlotLine(item) == "%plot: |" + (inner + "|");
      StripPrefixOf("%plot: |", inner + "|");
      StripSuffixOf(inner, "|");
    case PlotSite(state) =>
      var inner := Render(state);
      assert PlotLine(item) == "%plot: |" + (inner + "|");
      StripPrefixOf("%plot: |", inner + "|");
      StripSuffixOf(inner, "|");
      if Readable(state) {
        SiteStateRoundTrip(state);
      }
    case PlotRaw(text) =>
  }

  // ---------------------------------------------------------------------------
  // Reading the whole script back

  /** A site state none of whose names holds a line break. */
  predicate SingleLineState(s: SiteState)
  {
    '\n' !in NameOf(s.agent) && '\n' !in s.site && '\n' !in s.state
  }

  /** An agent whose declaration fits on one line: no line break in its name or
      its site names. */
  predicate SingleLineAgent(a: Agent)
  {
    '\n' !in a.name && forall j :: 0 <= j < |a.sites| ==> '\n' !in a.sites[j]
  }

  /** A rule whose line fits on one line: no line break in its name, sense, rate
      or the names of its site states. */
  predicate SingleLineRule(r: Rule)
  {
    && '\n' !in r.name && '\n' !in r.sense && '\n' !in r.rate
    && (forall j :: 0 <= j < |r.reactants| ==> SingleLineState(r.reactants[j]))
    && (forall j :: 0 <= j < |r.products| ==> SingleLineState(r.products[j]))
  }

  /** A snapshot whose alarm line fits on one line. */
  predicate SingleLineSnapshot(snap: (string, real), formatTime: real -> string)
  {
    '\n' !in formatTime(snap.1) && '\n' !in snap.0
  }

  /** A model none of whose printed parts holds a line break, so that each agent,
      rule, quantity, alarm and plot takes exactly one line of the script. */
  predicate LineBreakFree(m: Model, formatTime: real -> string)
  {
    && (forall k :: 0 <= k < |m.agents| ==> SingleLineAgent(m.agents[k]))
    && (forall k :: 0 <= k < |m.rules| ==> SingleLineRule(m.rules[k]))
    && (forall k :: 0 <= k < |m.initialQuantities| ==> '\n' !in NameOf(m.initialQuantities[k].0))
    && (forall k :: 0 <= k < |m.snapshotTimes| ==> SingleLineSnapshot(m.snapshotTimes[k], formatTime))
    && (forall k :: 0 <= k < |m.plots| ==> '\n' !in PlotItemString(m.plots[k]))
  }

  /** A model whose every line can be read back as what produced it. */
  predicate Printable(m: Model, formatTime: real -> string)
  {
    && LineBreakFree(m, formatTime)
    && (forall k :: 0 <= k < |m.agents| ==> Declarable(m.agents[k]))
    && (forall k :: 0 <= k < |m.rules| ==> ReadableRule(m.rules[k]))
    && (forall k :: 0 <= k < |m.snapshotTimes| ==> ' ' !in formatTime(m.snapshotTimes[k].1))
  }

  lemma DeclarationSingleLine(agent: Agent)
    requires '\n' !in agent.name
    requires forall j :: 0 <= j < |agent.sites| ==> '\n' !in agent.sites[j]
    ensures '\n' !in Declaration(agent)
  {
    NotInJoin(agent.sites, ", ", '\n');
  }

  lemma StatesSingleLine(states: seq<SiteState>)
    requires forall j :: 0 <= j < |states| ==> SingleLineState(states[j])
    ensures '\n' !in RenderAll(states)
  {
    NotInJoin(Renderings(states), ",", '\n');
  }

  lemma RuleSingleLine(r: Rule)
    requires SingleLineRule(r)
    ensures '\n' !in RuleText(r)
  {
    StatesSingleLine(r.reactants);
    StatesSingleLine(r.products);
  }

  lemma InitSingleLine(q: (AgentRef, int))
    requires '\n' !in NameOf(q.0)
    ensures '\n' !in InitLine(q)
  {
    IntTextPlain(q.1);
  }

  lemma AgentsLines(agents: seq<Agent>)
    requires forall k :: 0 <= k < |agents| ==> SingleLineAgent(agents[k])
    ensures SplitOn(Join(Declarations(agents), "\n"), '\n') == Block(Declarations(agents))
  {
    var lines := Declarations(agents);
    forall k | 0 <= k < |lines| ensures '\n' !in lines[k] {
      DeclarationSingleLine(agents[k]);
    }
    SectionLines(lines);
  }

  lemma RulesLines(rules: seq<Rule>)
    requires forall k :: 0 <= k < |rules| ==> SingleLineRule(rules[k])
    ensures SplitOn(Join(RuleLines(rules), "\n"), '\n') == Block(RuleLines(rules))
  {
    var lines := RuleLines(rules);
    forall k | 0 <= k < |lines| ensures '\n' !in lines[k] {
      RuleSingleLine(rules[k]);
    }
    SectionLines(lines);
  }

  lemma InitsLines(qs: seq<(AgentRef, int)>)
    requires forall k :: 0 <= k < |qs| ==> '\n' !in NameOf(qs[k].0)
    ensures SplitOn(Join(InitLines(qs), "\n"), '\n') == Block(InitLines(qs))
  {
    var lines := InitLines(qs);
    forall k | 0 <= k < |lines| ensures '\n' !in lines[k] {
      InitSingleLine(qs[k]);
    }
    SectionLines(lines);
  }

  lemma SnapshotsLines(snaps: seq<(string, real)>, formatTime: real -> string)
    requires forall k :: 0 <= k < |snaps| ==> SingleLineSnapshot(snaps[k], formatTime)
    ensures SplitOn(Join(SnapshotLines(snaps, formatTime), "\n"), '\n')
         == Block(SnapshotLines(snaps, formatTime))
  {
    var lines := SnapshotLines(snaps, formatTime);
    forall k | 0 <= k < |lines| ensures '\n' !in lines[k] {
      var time := formatTime(snaps[k].1);
      assert SingleLineSnapshot(snaps[k], formatTime);
      assert lines[k] == "%mod: alarm " + time + " do $SNAPSHOT \"" + snaps[k].0 + "\";";
    }
    SectionLines(lines);
  }

  lemma PlotsLines(plots: seq<PlotItem>)
    requires forall k :: 0 <= k < |plots| ==> '\n' !in PlotItemString(plots[k])
    ensures SplitOn(Join(PlotLines(plots), "\n"), '\n') == Block(PlotLines(plots))
  {
    var lines := PlotLines(plots);
    forall k | 0 <= k < |lines| ensures '\n' !in lines[k] {
      assert lines[k] == "%plot: " + PlotItemString(plots[k]);
    }
    SectionLines(lines);
  }

  /** The script of a model whose printed parts hold no line break is exactly: the
      agent declarations, an empty line, the rule lines, an empty line, the `%init:`
      lines, an empty line, the alarm lines, an empty line, the `%plot:` lines, each
      in list order, with a section that has no lines still leaving one empty line. */
  lemma ScriptLayout(m: Model, formatTime: real -> string)
    requires LineBreakFree(m, formatTime)
    ensures SplitOn(FullScript(m, formatTime), '\n')
         == Stack([Block(Declarations(m.agents)), Block(RuleLines(m.rules)),
                   Block(InitLines(m.initialQuantities)),
                   Block(SnapshotLines(m.snapshotTimes, formatTime)), Block(PlotLines(m.plots))])
  {
    var texts := [AgentsSection(m), RulesSection(m), InitsSection(m),
                  SnapshotsSection(m, formatTime), PlotsSection(m)];
    BlankLineJoin(texts);
    AgentsLines(m.agents);
    RulesLines(m.rules);
    InitsLines(m.initialQuantities);
    SnapshotsLines(m.snapshotTimes, formatTime);
    PlotsLines(m.plots);
    assert LinesOfEach(texts)
        == [Block(Declarations(m.agents)), Block(RuleLines(m.rules)),
            Block(InitLines(m.initialQuantities)),
            Block(SnapshotLines(m.snapshotTimes, formatTime)), Block(PlotLines(m.plots))];
  }

  /** Every declaration line of a printable model reads back as its agent, and every
      rule line as its rule (agents known by name), in list order. */
  lemma ScriptReadBack(m: Model, formatTime: real -> string)
    requires Printable(m, formatTime)
    ensures forall k :: 0 <= k < |m.agents| ==> ParseDeclaration(Declarations(m.agents)[k]) == Some(m.agents[k])
    ensures forall k :: 0 <= k < |m.rules| ==> ParseRule(RuleLines(m.rules)[k]) == Some(RuleByName(m.rules[k]))
    ensures forall k :: 0 <= k < |m.initialQuantities| ==>
              ParseInit(InitLines(m.initialQuantities)[k])
              == Some((NameOf(m.initialQuantities[k].0), m.initialQuantities[k].1))
    ensures forall k :: 0 <= k < |m.snapshotTimes| ==>
              ParseSnapshot(SnapshotLines(m.snapshotTimes, formatTime)[k])
              == Some((formatTime(m.snapshotTimes[k].1), m.snapshotTimes[k].0))
  {
    forall k | 0 <= k < |m.agents|
      ensures ParseDeclaration(Declarations(m.agents)[k]) == Some(m.agents[k])
    {
      DeclarationRoundTrip(m.agents[k]);
    }
    forall k | 0 <= k < |m.rules|
      ensures ParseRule(RuleLines(m.rules)[k]) == Some(RuleByName(m.rules[k]))
    {
      RuleRoundTrip(m.rules[k]);
    }
    forall k | 0 <= k < |m.initialQuantities|
      ensures ParseInit(InitLines(m.initialQuantities)[k])
              == Some((NameOf(m.initialQuantities[k].0), m.initialQuantities[k].1))
    {
      InitLineRoundTrip(m.initialQuantities[k]);
    }
    forall k | 0 <= k < |m.snapshotTimes|
      ensures ParseSnapshot(SnapshotLines(m.snapshotTimes, formatTime)[k])
              == Some((formatTime(m.snapshotTimes[k].1), m.snapshotTimes[k].0))
    {
      SnapshotLineRoundTrip(m.snapshotTimes[k].0, formatTime(m.snapshotTimes[k].1));
    }
  }

  // ---------------------------------------------------------------------------
  // Plot data: dict(zip(legend, zip(*series)))

  /** The length of the shortest row; no rows give no columns. */
  function Width<T>(series: seq<seq<T>>): (r: nat)
    ensures |series| == 0 ==> r == 0
    ensures forall i :: 0 <= i < |series| ==> r <= |series[i]|
    ensures |series| > 0 ==> exists i :: 0 <= i < |series| && r == |series[i]|
  {
    if |series| == 0 then 0
    else if |series| == 1 then |series[0]|
    else
      var rest := Width(series[1..]);
      assert forall i :: 1 <= i < |series| ==> rest <= |series[i]| by {
        forall i | 1 <= i < |series| ensures rest <= |series[i]| {
          assert series[i] == series[1..][i - 1];
        }
      }
      if |series[0]| < rest then |series[0]| else rest
  }

  /** Column `k` of the rows: the `k`-th value of every row, in row order. */
  function Column<T>(series: seq<seq<T>>, k: nat): (r: seq<T>)
    requires k < Width(series)
    ensures |r| == |series|
    ensures forall i :: 0 <= i < |series| ==> r[i] == series[i][k]
  {
    seq(|series|, i requires 0 <= i < |series| => series[i][k])
  }

  /** Label `k` is not repeated among the first `n` labels after position `k`. */
  predicate LastAmong(legend: seq<string>, n: nat, k: nat)
    requires n <= |legend|
  {
    forall j :: k < j < n ==> legend[j] != legend[k]
  }

  /** `dict(zip(legend, columns))` over the first `n` columns: pairs are inserted
      in legend order, so a repeated label is rebound to its later column. */
  function Zipped<T>(legend: seq<string>, series: seq<seq<T>>, n: nat): map<string, seq<T>>
    requires n <= |legend| && n <= Width(series)
  {
    if n == 0 then map[] else Zipped(legend, series, n - 1)[legend[n - 1] := Column(series, n - 1)]
  }

  /** The keys are exactly the first `n` labels, so there are at most `n` of them. */
  lemma {:induction false} ZippedKeys<T>(legend: seq<string>, series: seq<seq<T>>, n: nat)
    requires n <= |legend| && n <= Width(series)
    ensures forall k :: 0 <= k < n ==> legend[k] in Zipped(legend, series, n)
    ensures forall x :: x in Zipped(legend, series, n) ==> exists k :: 0 <= k < n && legend[k] == x
    ensures |Zipped(legend, series, n)| <= n
  {
    if n > 0 {
      ZippedKeys(legend, series, n - 1);
      var m := Zipped(legend, series, n);
      forall x | x in m ensures exists k :: 0 <= k < n && legend[k] == x {
        if x != legend[n - 1] {
          var k :| 0 <= k < n - 1 && legend[k] == x;
        }
      }
    }
  }

  /** The column a label ends up bound to is the one at its last position. */
  lemma {:induction false} ZippedLastWins<T>(legend: seq<string>, series: seq<seq<T>>, n: nat, k: nat)
    requires n <= |legend| && n <= Width(series)
    requires k < n && LastAmong(legend, n, k)
    ensures legend[k] in Zipped(legend, series, n)
    ensures Zipped(legend, series, n)[legend[k]] == Column(series, k)
  {
    if k < n - 1 {
      assert legend[n - 1] != legend[k];
      ZippedLastWins(legend, series, n - 1, k);
    }
  }

  /** The reshaped plot data: as many labels as both the legend and the shortest
      row allow, each bound to its column; when a label repeats, its last column
      wins; no rows give no entries. */
  lemma PlotReshape<T>(legend: seq<string>, series: seq<seq<T>>)
    ensures var n := Min(|legend|, Width(series));
            var plots := Zipped(legend, series, n);
            && (forall k :: 0 <= k < n ==> legend[k] in plots)
            && (forall x :: x in plots ==> exists k :: 0 <= k < n && legend[k] == x)
            && (forall k :: 0 <= k < n && LastAmong(legend, n, k) ==>
                  plots[legend[k]] == Column(series, k))
            && |plots| <= n
            && (|series| == 0 ==> plots == map[])
  {
    var n := Min(|legend|, Width(series));
    ZippedKeys(legend, series, n);
    forall j | 0 <= j < n && LastAmong(legend, n, j)
      ensures Zipped(legend, series, n)[legend[j]] == Column(series, j)
    {
      ZippedLastWins(legend, series, n, j);
    }
  }

  /** `dict(zip(legend, zip(*series)))`, built one pair at a time in legend order. */
  method PlotColumns<T>(legend: seq<string>, series: seq<seq<T>>) returns (plots: map<string, seq<T>>)
    ensures plots == Zipped(legend, series, Min(|legend|, Width(series)))
  {
    var n := Min(|legend|, Width(series));
    plots := map[];
    var k := 0;
    while k < n
      invariant 0 <= k <= n
      invariant plots == Zipped(legend, series, k)
    {
      plots := plots[legend[k] := Column(series, k)];
      k := k + 1;
    }
  }
}

=== FILE: outcomes.dfy ===
/** Option and Result values: how the model spells "no value" and Python's raised exceptions. */
module Outcomes {

  /** A value that may be absent (a parse that did not match, a missing key).
      It is failure-compatible, so a parser can write `var x :- step; ...`. */
  datatype Option<+T> = None | Some(value: T) {
    predicate IsFailure() {
      None?
    }

    function PropagateFailure<U>(): Option<U>
      requires None?
    {
      None
    }

    function Extract(): T
      requires Some?
    {
      value
    }
  }

  /** Either a value or the error the source would raise instead of returning. */
  datatype Result<+T, +E> = Success(value: T) | Failure(error: E)
}

=== FILE: text.dfy ===
/** Python's string primitives used by the script builder and the error formatter:
    `sep.join(parts)`, `s.split(c)` for a one-character separator, and `"%d" % n`,
    together with the facts that make them inverses of each other. */
module Text {
  import opened Outcomes

  /** `sep.join(parts)`: the empty list joins to "". */
  function Join(parts: seq<string>, sep: string): string
  {
    if |parts| == 0 then ""
    else if |parts| == 1 then parts[0]
    else parts[0] + sep + Join(parts[1..], sep)
  }

  /** `s.split(c)`: every occurrence of `c` separates two pieces, so there is always
      at least one piece and no piece contains `c`. */
  function SplitOn(s: string, c: char): (r: seq<string>)
    ensures |r| >= 1
    ensures forall k :: 0 <= k < |r| ==> c !in r[k]
  {
    if |s| == 0 then [""]
    else
      var rest := SplitOn(s[1..], c);
      if s[0] == c then [""] + rest
      else [[s[0]] + rest[0]] + rest[1..]
  }

  /** The text before the first `c` and the text after it, if `c` occurs. */
  function SplitFirst(s: string, c: char): Option<(string, string)>
  {
    if |s| == 0 then None
    else if s[0] == c then Some(("", s[1..]))
    else
      match SplitFirst(s[1..], c)
      case None => None
      case Some(p) => Some(([s[0]] + p.0, p.1))
  }

  /** `s` without the leading `p`, if it starts with `p`. */
  function StripPrefix(s: string, p: string): Option<string>
  {
    if |p| <= |s| && s[..|p|] == p then Some(s[|p|..]) else None
  }

  /** `s` without the trailing `p`, if it ends with `p`. */
  function StripSuffix(s: string, p: string): Option<string>
  {
    if |p| <= |s| && s[|s| - |p|..] == p then Some(s[..|s| - |p|]) else None
  }

  // ---------------------------------------------------------------------------
  // Join

  lemma JoinCons(x: string, ys: seq<string>, sep: string)
    requires |ys| > 0
    ensures Join([x] + ys, sep) == x + sep + Join(ys, sep)
  {
    assert ([x] + ys)[1..] == ys;
  }

  /** Joining two non-empty lists is joining their joins. */
  lemma {:induction false} JoinAppend(xs: seq<string>, ys: seq<string>, sep: string)
    requires |xs| > 0 && |ys| > 0
    ensures Join(xs + ys, sep) == Join(xs, sep) + sep + Join(ys, sep)
  {
    if |xs| == 1 {
      JoinCons(xs[0], ys, sep);
      assert xs + ys == [xs[0]] + ys;
    } else {
      JoinAppend(xs[1..], ys, sep);
      assert (xs + ys)[1..] == xs[1..] + ys;
    }
  }

  /** What a join puts before an element that follows the parts `a`. */
  function Front(a: seq<string>, sep: string): string
  {
    if |a| == 0 then "" else Join(a, sep) + sep
  }

  /** What a join puts after an element that precedes the parts `b`. */
  function Back(b: seq<string>, sep: string): string
  {
    if |b| == 0 then "" else sep + Join(b, sep)
  }

  lemma JoinAround(a: seq<string>, w: string, b: seq<string>, sep: string)
    ensures Join(a + [w] + b, sep) == Front(a, sep) + w + Back(b, sep)
  {
    if |b| > 0 {
      JoinCons(w, b, sep);
    } else {
      assert [w] + b == [w];
    }
    if |a| > 0 {
      JoinAppend(a, [w] + b, sep);
      assert a + [w] + b == a + ([w] + b);
    } else {
      assert a + [w] + b == [w] + b;
    }
  }

  /** Text placed between the last part of one join and the first part of another
      ends up inside a single part of the combined join. */
  lemma JoinGlue(a: seq<string>, x: string, y: string, z: string, b: seq<string>, sep: string)
    ensures Join(a + [x], sep) + y + Join([z] + b, sep) == Join(a + [x + y + z] + b, sep)
  {
    var none: seq<string> := [];
    var front, back := Front(a, sep), Back(b, sep);
    JoinAround(a, x, none, sep);
    assert a + [x] + none == a + [x];
    assert Join(a + [x], sep) == front + x;
    JoinAround(none, z, b, sep);
    assert none + [z] + b == [z] + b;
    assert Join([z] + b, sep) == z + back;
    JoinAround(a, x + y + z, b, sep);
    assert (front + x) + y + (z + back) == front + (x + y + z) + back;
  }

  /** A character that is neither in the separator nor in any part is not in the join. */
  lemma {:induction false} NotInJoin(parts: seq<string>, sep: string, c: char)
    requires c !in sep
    requires forall k :: 0 <= k < |parts| ==> c !in parts[k]
    ensures c !in Join(parts, sep)
  {
    if |parts| > 1 {
      NotInJoin(parts[1..], sep, c);
    }
  }

  /** A join is at least as long as its first part. */
  lemma {:induction false} JoinLength(parts: seq<string>, sep: string)
    requires |parts| > 0
    ensures |Join(parts, sep)| >= |parts[0]|
    ensures Join(parts, sep)[..|parts[0]|] == parts[0]
  {
  }

  /** A character missing from a string is missing from every slice of it. */
  lemma NotInSlice(s: string, c: char, i: nat, j: nat)
    requires c !in s
    requires i <= j <= |s|
    ensures c !in s[i..j]
  {
  }

  // ---------------------------------------------------------------------------
  // SplitOn

  lemma {:induction false} SplitOnNoSeparator(s: string, c: char)
    requires c !in s
    ensures SplitOn(s, c) == [s]
  {
    if |s| > 0 {
      SplitOnNoSeparator(s[1..], c);
      assert [s[0]] + s[1..] == s;
    }
  }

  lemma SplitOnCons(ch: char, t: string, c: char)
    ensures SplitOn([ch] + t, c)
         == if ch == c then [""] + SplitOn(t, c)
            else [[ch] + SplitOn(t, c)[0]] + SplitOn(t, c)[1..]
  {
    assert ([ch] + t)[0] == ch;
    assert ([ch] + t)[1..] == t;
  }

  /** Splitting at a separator splits each side independently. */
  lemma {:induction false} SplitOnSeparator(x: string, y: string, c: char)
    ensures SplitOn(x + [c] + y, c) == SplitOn(x, c) + SplitOn(y, c)
  {
    if |x| == 0 {
      assert x + [c] + y == [c] + y;
      SplitOnCons(c, y, c);
    } else {
      var t := x[1..] + [c] + y;
      assert x + [c] + y == [x[0]] + t;
      assert x == [x[0]] + x[1..];
      SplitOnSeparator(x[1..], y, c);
      SplitOnCons(x[0], t, c);
      SplitOnCons(x[0], x[1..], c);
    }
  }

  /** Splitting a string whose prefix has no separator glues that prefix to the first piece. */
  lemma {:induction false} SplitOnPrefix(x: string, y: string, c: char)
    requires c !in x
    ensures SplitOn(x + y, c) == [x + SplitOn(y, c)[0]] + SplitOn(y, c)[1..]
  {
    if |x| > 0 {
      assert (x + y)[0] == x[0];
      assert (x + y)[1..] == x[1..] + y;
      SplitOnPrefix(x[1..], y, c);
      assert [x[0]] + (x[1..] + SplitOn(y, c)[0]) == x + SplitOn(y, c)[0];
    } else {
      assert x + y == y;
      assert x + SplitOn(y, c)[0] == SplitOn(y, c)[0];
      assert [SplitOn(y, c)[0]] + SplitOn(y, c)[1..] == SplitOn(y, c);
    }
  }

  /** Splitting undoes joining, when no part holds the separator. */
  lemma {:induction false} SplitOnJoin(parts: seq<string>, c: char)
    requires |parts| > 0
    requires forall k :: 0 <= k < |parts| ==> c !in parts[k]
    ensures SplitOn(Join(parts, [c]), c) == parts
  {
    if |parts| == 1 {
      SplitOnNoSeparator(parts[0], c);
    } else {
      SplitOnJoin(parts[1..], c);
      SplitOnNoSeparator(parts[0], c);
      SplitOnSeparator(parts[0], Join(parts[1..], [c]), c);
      assert [parts[0]] + parts[1..] == parts;
    }
  }

  /** Joining undoes splitting. */
  lemma {:induction false} JoinSplitOn(s: string, c: char)
    ensures Join(SplitOn(s, c), [c]) == s
  {
    if |s| > 0 {
      JoinSplitOn(s[1..], c);
      var rest := SplitOn(s[1..], c);
      if s[0] == c {
        JoinCons("", rest, [c]);
        assert s == [c] + s[1..];
      } else {
        var none: seq<string> := [];
        JoinGlue(none, "", [s[0]], rest[0], rest[1..], [c]);
        assert [rest[0]] + rest[1..] == rest;
        assert "" + [s[0]] + rest[0] == [s[0]] + rest[0];
        assert none + ["" + [s[0]] + rest[0]] + rest[1..] == [[s[0]] + rest[0]] + rest[1..];
        assert none + [""] == [""];
        assert s == [s[0]] + s[1..];
      }
    }
  }

  /** There is one more piece than there are separators. */
  lemma {:induction false} SplitOnCount(s: string, c: char)
    ensures |SplitOn(s, c)| == multiset(s)[c] + 1
  {
    if |s| > 0 {
      SplitOnCount(s[1..], c);
      assert s == [s[0]] + s[1..];
      assert multiset(s) == multiset{s[0]} + multiset(s[1..]);
    }
  }

  // ---------------------------------------------------------------------------
  // SplitFirst, StripPrefix, StripSuffix

  /** The first separator is found right after a separator-free prefix. */
  lemma {:induction false} SplitFirstAt(a: string, b: string, c: char)
    requires c !in a
    ensures SplitFirst(a + [c] + b, c) == Some((a, b))
  {
    var s := a + [c] + b;
    if |a| == 0 {
      assert s == [c] + b;
      assert s[1..] == b;
    } else {
      assert s[0] == a[0];
      assert s[1..] == a[1..] + [c] + b;
      SplitFirstAt(a[1..], b, c);
      assert [a[0]] + a[1..] == a;
    }
  }

  lemma StripPrefixOf(p: string, s: string)
    ensures StripPrefix(p + s, p) == Some(s)
  {
    assert (p + s)[..|p|] == p;
    assert (p + s)[|p|..] == s;
  }

  lemma StripSuffixOf(s: string, p: string)
    ensures StripSuffix(s + p, p) == Some(s)
  {
    assert (s + p)[|s + p| - |p|..] == p;
    assert (s + p)[..|s + p| - |p|] == s;
  }

  /** A blank line between two texts is one empty line between their lines. */
  lemma SplitAtBlankLine(x: string, y: string)
    ensures SplitOn(x + "\n\n" + y, '\n') == SplitOn(x, '\n') + [""] + SplitOn(y, '\n')
  {
    assert x + "\n\n" + y == x + ['\n'] + ("" + ['\n'] + y);
    SplitOnSeparator(x, "" + ['\n'] + y, '\n');
    SplitOnSeparator("", y, '\n');
  }

  // ---------------------------------------------------------------------------
  // Integer bounds

  function Max(a: int, b: int): int
  {
    if a < b then b else a
  }

  function Min(a: int, b: int): int
  {
    if a < b then a else b
  }

  // ---------------------------------------------------------------------------
  // "%d" % n

  function DigitChar(d: nat): char
    requires d < 10
  {
    "0123456789"[d]
  }

  function DigitValue(ch: char): Option<nat>
  {
    if '0' <= ch <= '9' then Some((ch as int - '0' as int) as nat) else None
  }

  /** Decimal digits of a natural number, without leading zeros. */
  function NatText(n: nat): (r: string)
    ensures |r| >= 1
    ensures forall k :: 0 <= k < |r| ==> DigitValue(r[k]).Some?
    decreases n
  {
    if n < 10 then [DigitChar(n)] else NatText(n / 10) + [DigitChar(n % 10)]
  }

  /** `"%d" % n`: a minus sign for negative numbers, then the digits. */
  function IntText(n: int): string
  {
    if n < 0 then "-" + NatText(-n) else NatText(n)
  }

  /** Reads a non-empty run of decimal digits. */
  function ParseNat(s: string): Option<nat>
    decreases |s|
  {
    if |s| == 0 then None
    else
      match DigitValue(s[|s| - 1])
      case None => None
      case Some(d) =>
        if |s| == 1 then Some(d)
        else
          match ParseNat(s[..|s| - 1])
          case None => None
          case Some(m) => Some(m * 10 + d)
  }

  /** Reads what `IntText` writes. */
  function ParseInt(s: string): Option<int>
  {
    if |s| > 0 && s[0] == '-' then
      match ParseNat(s[1..])
      case None => None
      case Some(m) => Some(-(m as int))
    else
      match ParseNat(s)
      case None => None
      case Some(m) => Some(m)
  }

  lemma DigitRoundTrip(d: nat)
    requires d < 10
    ensures DigitValue(DigitChar(d)) == Some(d)
  {
  }

  lemma {:induction false} ParseNatText(n: nat)
    ensures ParseNat(NatText(n)) == Some(n)
    decreases n
  {
    var s := NatText(n);
    DigitRoundTrip(n % 10);
    if n < 10 {
      assert s == [DigitChar(n)];
    } else {
      var front := NatText(n / 10);
      ParseNatText(n / 10);
      assert s == front + [DigitChar(n % 10)];
      assert s[|s| - 1] == DigitChar(n % 10);
      assert s[..|s| - 1] == front;
      assert n / 10 * 10 + n % 10 == n;
    }
  }

  lemma ParseIntSigned(digits: string, m: nat)
    requires ParseNat(digits) == Some(m)
    ensures ParseInt("-" + digits) == Some(-(m as int))
  {
    assert ("-" + digits)[1..] == digits;
  }

  lemma ParseIntUnsigned(digits: string, m: nat)
    requires ParseNat(digits) == Some(m)
    requires |digits| > 0 && digits[0] != '-'
    ensures ParseInt(digits) == Some(m)
  {
  }

  /** `"%d"` output reads back as the number it printed. */
  lemma ParseIntText(n: int)
    ensures ParseInt(IntText(n)) == Some(n)
  {
    if n < 0 {
      ParseNatText(-n);
      ParseIntSigned(NatText(-n), -n);
    } else {
      var digits := NatText(n);
      ParseNatText(n);
      assert DigitValue(digits[0]).Some?;
      ParseIntUnsigned(digits, n);
    }
  }

  /** Printed numbers contain no spaces and no line breaks. */
  lemma IntTextPlain(n: int)
    ensures ' ' !in IntText(n) && '\n' !in IntText(n)
  {
    var r := IntText(n);
    var digits := NatText(if n < 0 then -n else n);
    assert forall k :: 0 <= k < |digits| ==> digits[k] != ' ' && digits[k] != '\n' by {
      forall k | 0 <= k < |digits| ensures digits[k] != ' ' && digits[k] != '\n' {
        assert DigitValue(digits[k]).Some?;
      }
    }
  }
}
